=== FILE: README.md ===
# scrobbler `Base`: a Dafny model

This project models the core of `Scrobbler::Base` in `lib/scrobbler/base.rb`, a
Ruby client for the Last.fm web service (API version 2.0). The core covers
five things:

- **`Base.sanitize`** percent-encodes one key or value. Bytes in the
  unreserved set of section 2.3 of RFC 2396 (letters, digits and
  `-_.!~*'()`) are kept. Every other byte becomes `%XX` with upper-case hex
  digits.
- **`Base.request`** builds the request path.
  - It merges `{:signed => false}` under the caller's hash. It then stores the
    API key under `'api_key'` and the method name under `'method'`, and
    deletes `:signed`.
  - When the deleted flag is truthy, the call is signed:
    - the pairs are sorted by the text of their keys;
    - the key and value texts are joined with no separator;
    - the secret is appended;
    - the MD5 hex digest of that string is added as `api_sig`.
  - Either way, every pair becomes `sanitize(key)=sanitize(value)`. The
    fragments are joined with `&` after `/2.0/?`.
- **`Base.constanize`** turns a path such as `scrobbler/top_tags` into the
  constant names `Scrobbler`, `TopTags`. It uses two regular-expression
  substitutions and a `split('::')`, then looks the names up one inside the
  other, starting from `Object`.
- **`Base.get`** resolves the class for an element name and sends the
  request. It then builds one object for each element of that name found
  under a child of the document root that has the parent name, in document
  order.
- **`Base#populate_data`** assigns every pair of a hash to the instance
  variable named `@` plus the key's text, in the hash's order.

Modules, one file each. The functions named here define the model's
behaviour; the lemmas in the table below state their properties.

- `RubyString` (`ruby_string.dfy`): byte strings (Ruby 1.8 strings are
  bytes) and `upcase`.
  - `LessEq` is `String#<=>` (line 75).
  - `Concat` is `join('')` on texts (line 77).
  - `Join` is `join('&')` (line 91).
  - `SplitAll` and `CutAt` read a path back.
- `RubyHash` (`ruby_hash.dfy`): a Ruby `Hash` as an association list in
  iteration order. Symbol and String keys are distinct.
  - `Key.ToS` and `Value.ToS` are `to_s` (lines 75, 77, 84, 88).
  - `Value.Truthy` is the truth test on the deleted flag (line 73).
  - `Lookup` is `[]`.
  - `Store` is `[]=` (lines 69-70).
  - `Remove` and `Delete` are `delete` (line 73).
  - `Merge` is `merge` (line 68).
- `Escape` (`escape.dfy`): `Sanitize` is `sanitize` (lines 24-26).
  `Unescape` is a strict inverse of it, which agrees with `URI.unescape` on
  `sanitize`'s outputs.
- `Query` (`query.dfy`):
  - `Fragment` is `"#{sanitize(key)}=#{sanitize(value)}"` (lines 84, 88).
  - `Path` is `'/2.0/?' + paramlist.join('&')` (line 91).
  - `ParseQuery` reads a path back.
- `Signer` (`signer.dfy`):
  - `SortByKey` is the sort by key text (line 75).
  - `Entry`, `Entries` and `Joined` are `params.join('')` (line 77).
  - `SignatureInput` is that string with the secret appended (line 79).
- `Request` (`request.dfy`): `Base.request`.
  - `Prepared` is the hash after `merge` and the two stores (lines 68-70).
  - `CallerSigned` says the caller passed a truthy `:signed`, which is what
    `merge` keeps and `delete` returns (lines 68, 73).
  - `SignedPairs` is the sorted pairs with `[:api_sig, md5]` appended
    (lines 81-82).
  - `QueryPairs` is the pairs sent, or the error raised (lines 68-90).
  - `RequestPath` is the path (lines 64-91).
  - The class variables `@@api_key` and `@@secret` are a `Credentials`
    value. Reading one that was never set is an error result, as the
    `NameError` Ruby raises.
  - MD5 is the function parameter `digest`.
- `Constanize` (`constanize.dfy`): the name transform and the lookup loop.
  - `SlashToScope` is the first `gsub` (lines 30-31).
  - `Camelize` is the second (line 32).
  - `SplitScope` and `DropTrailingEmpty` are `split('::')` (line 32).
  - `ConstantNames` is the names after the `shift` (lines 30-33).
  - The constants Ruby knows are a `Registry` of defined paths.
- `Response` (`response.dfy`): `Base.get` with its two nested loops.
  - `Named` and `Members` are the elements the loops visit (lines 46-52).
  - Sending and parsing (`respond`) are parameters, and so is
    `new_from_libxml` (`build`).
- `Entity` (`entity.dfy`): a class whose `fields` map is the object's
  instance variables, and `PopulateData`.
  - `IvarName` is the name `"@#{key.to_s}"` (line 112).
  - `IsIdentByte` and `IsIvarKey` are the rule by which
    `instance_variable_set` accepts that name or raises `NameError`
    (line 112).
  - `Overlay` is the variables after assigning every pair in order
    (lines 111-113).

## Notes on the code

- `sanitize` keeps the whole unreserved set of RFC 2396,
  `URI::PATTERN::UNRESERVED`. That is letters, digits, and the marks `-`, `_`,
  `.`, `!`, `~`, `*`, `'`, `(` and `)`.
- `:signed` is deleted before the signature input is built, so the flag is
  never part of it (`Request.SignedLayout`).
- A hash can hold both `:api_key` and `'api_key'`. Only the String keys
  `'api_key'` and `'method'` are overwritten. A Symbol key with the same text
  is sent alongside them (`Request.CallerPairsKept`).
- `populate_data` assigns every key it is given, known to the class or not.
  It raises on the first key that cannot name an instance variable
  (`Entity.Entity.PopulateData`).

## Model

| member | source | states |
|---|---|---|
| RubyString.Upcase | lib/scrobbler/base.rb:31-32 | `upcase` of one byte leaves no lower-case letter. It changes a byte exactly when the byte is a lower-case letter, and turns it into the same letter in upper case |
| RubyString.LessEqTotal | lib/scrobbler/base.rb:75 | the byte-wise `<=>` order used for sorting is total |
| RubyString.LessEqAntisymmetric | lib/scrobbler/base.rb:75 | two texts ordered both ways are equal |
| RubyString.LessEqTransitive | lib/scrobbler/base.rb:75 | the order is transitive |
| RubyString.SplitAllJoin | lib/scrobbler/base.rb:91 | splitting the `&`-joined fragments on `&` gives the fragments back when none holds `&` and there is at least one |
| RubyString.CutAtFirst | lib/scrobbler/base.rb:84 | cutting `k=v` at its first `=` gives `k` and `v` when `k` has no `=` |
| RubyString.ConcatAppend | lib/scrobbler/base.rb:77 | `join('')` of two lists of texts is the two joins back to back |
| RubyHash.Lookup | lib/scrobbler/base.rb:73 | `h[k]` found a value only if the pair is in the hash |
| RubyHash.LookupIffPair | lib/scrobbler/base.rb:68-73 | in a hash, `h[k] == v` exactly when the pair `(k, v)` is present |
| RubyHash.StoreLookup | lib/scrobbler/base.rb:69-70 | after `h[k] = v`, `k` gives `v` and every other key what it gave before |
| RubyHash.StorePlace | lib/scrobbler/base.rb:69-70 | `[]=` on a present key keeps every key in place; a new key goes last |
| RubyHash.StoreUnique | lib/scrobbler/base.rb:69-70 | `[]=` keeps the keys unique |
| RubyHash.StoreMultiset | lib/scrobbler/base.rb:69-70 | `[]=` replaces the pair under `k`, if any, with `(k, v)` and keeps every other pair |
| RubyHash.RemoveLookup | lib/scrobbler/base.rb:73 | after `delete k`, `k` is absent and every other key gives what it gave before |
| RubyHash.RemoveMultiset | lib/scrobbler/base.rb:73 | `delete k` drops exactly the pairs under `k` |
| RubyHash.RemoveUnique | lib/scrobbler/base.rb:73 | `delete` keeps the keys unique |
| RubyHash.RemoveAbsent | lib/scrobbler/base.rb:73 | deleting an absent key changes nothing |
| RubyHash.RemoveStore | lib/scrobbler/base.rb:69-73 | storing one key and deleting another commute |
| RubyHash.RemoveApart | lib/scrobbler/base.rb:73 | two hashes that differ only in the value at one place still do after deleting another key, with that pair at one place in both |
| RubyHash.StoreApart | lib/scrobbler/base.rb:69-70 | two hashes that differ only in the value at one place still do, at the same place, after storing under another key |
| RubyHash.UniquePair | lib/scrobbler/base.rb:68-73 | in a hash, the pair under a key occurs once and is the only pair under that key |
| RubyHash.MergeLookup | lib/scrobbler/base.rb:68 | in `h.merge(h2)`, a key of `h2` gives `h2`'s value, every other key `h`'s |
| RubyHash.MergeIntoSingleton | lib/scrobbler/base.rb:68 | `{:signed => false}.merge(p)` is `:signed` first, holding the caller's value if any, then the caller's other pairs in order |
| RubyHash.SameHashStore | lib/scrobbler/base.rb:69-70 | two hashes with the same pairs still hold the same pairs after the same `[]=` |
| RubyHash.SameHashRemove | lib/scrobbler/base.rb:73 | two lists with the same pairs still hold the same pairs after the same `delete` |
| RubyHash.SameHashSameLookup | lib/scrobbler/base.rb:73 | two hashes with the same pairs answer every lookup alike |
| Escape.EscapeByte | lib/scrobbler/base.rb:24-26 | an unreserved byte is kept; any other becomes `%`, two upper-case hex digits, which name that byte |
| Escape.Sanitize | lib/scrobbler/base.rb:24-26 | the output is canonical, uses only unreserved bytes and `%`, and is between one and three times the input length |
| Escape.UnescapeSanitize | lib/scrobbler/base.rb:24-26 | unescaping the output of `sanitize` gives back its input |
| Escape.SanitizeUnescape | lib/scrobbler/base.rb:24-26 | every canonical string is `sanitize` of what it unescapes to: `sanitize` is onto the canonical strings |
| Escape.SanitizeInjective | lib/scrobbler/base.rb:24-26 | different inputs give different outputs |
| Escape.SanitizeHasNoSeparators | lib/scrobbler/base.rb:24-26 | `&` and `=` never appear in the output |
| Query.Fragments | lib/scrobbler/base.rb:83-89 | one fragment per pair |
| Query.FragmentsAt | lib/scrobbler/base.rb:83-89 | fragment `i` is `sanitize(key)=sanitize(value)` of pair `i` |
| Query.FragmentHasNoAmpersand | lib/scrobbler/base.rb:84 | a fragment holds no `&` |
| Query.ParseFragmentOf | lib/scrobbler/base.rb:84 | a fragment read back gives the key text and value text of its pair |
| Query.ParseFragmentsOf | lib/scrobbler/base.rb:83-89 | the fragments read back give every pair's texts, in order |
| Query.QueryRoundTrip | lib/scrobbler/base.rb:83-91 | a request path read back gives the key and value texts of its pairs, in order |
| Signer.Insert | lib/scrobbler/base.rb:75 | inserting into a sorted list keeps it sorted, and the list grows by one |
| Signer.InsertAdds | lib/scrobbler/base.rb:75 | insertion adds exactly that pair and keeps every other pair |
| Signer.SortByKey | lib/scrobbler/base.rb:75 | the result is sorted by key text and is a permutation of the pairs |
| Signer.SortedUnique | lib/scrobbler/base.rb:75 | with distinct key texts, two sorted permutations of the same pairs are equal |
| Signer.SortOrderFree | lib/scrobbler/base.rb:75 | when no two keys share their text, the sort's result does not depend on the hash's order |
| Signer.SignatureInputOrderFree | lib/scrobbler/base.rb:75-79 | when no two keys share their text, the digest's input does not depend on the order of the parameters |
| Signer.Entries | lib/scrobbler/base.rb:77 | one entry per pair |
| Signer.EntriesAppend | lib/scrobbler/base.rb:77 | the entries of two lists of pairs are the entries of each, in order |
| Signer.JoinedAppend | lib/scrobbler/base.rb:77 | `join('')` of two lists of pairs is the two joins back to back |
| Signer.MiddleDiffers | lib/scrobbler/base.rb:77-79 | two digest inputs that differ only in one entry's value text differ |
| Signer.JoinedAt | lib/scrobbler/base.rb:77 | `join('')` puts pair `i`'s key and value text between the entries before and after it |
| Signer.SignatureInputSeparates | lib/scrobbler/base.rb:77-79 | in a list already sorted, changing one value's text, and nothing else, changes the digest's input |
| Signer.InsertTwin | lib/scrobbler/base.rb:75 | two pairs under the same key are inserted at the same place of a sorted list, which is otherwise unchanged |
| Signer.InsertApart | lib/scrobbler/base.rb:75 | inserting a pair into two sorted lists that differ only in one value keeps them differing only in that value, at one place in both |
| Signer.SortApart | lib/scrobbler/base.rb:75 | the sort looks at key texts only: two lists that differ only in the value at one place sort into two lists that differ only in that value, at one place in both |
| Signer.SortedInputSeparates | lib/scrobbler/base.rb:75-79 | changing the value text at one place of the unsorted pairs, and nothing else, changes the digest's input, wherever the sort moves that pair |
| Request.Request | lib/scrobbler/base.rb:64-93 | the path built pair by pair is the request path. It fails with `ApiKeyNotSet` exactly when no key is set, and with `SecretNotSet` exactly when a signed call has no secret. On success it reads back to the texts of the pairs sent |
| Request.PreparedShape | lib/scrobbler/base.rb:68-73 | after `delete :signed` the hash is the caller's pairs without `:signed`, with `api_key` and `method` stored; its keys stay unique |
| Request.FlagIsCallers | lib/scrobbler/base.rb:68-73 | `delete :signed` is truthy exactly when the caller passed a truthy `:signed` |
| Request.QueryPairsFails | lib/scrobbler/base.rb:64-93 | the two failures, each as an if-and-only-if |
| Request.RemainingFacts | lib/scrobbler/base.rb:68-73 | after `delete :signed` the keys are unique, `api_key` holds the key, `method` holds the method name, and `:signed` is gone |
| Request.WireShape | lib/scrobbler/base.rb:73-90 | unsigned: the remaining pairs as they stand. Signed: sorted, then `api_sig` |
| Request.WireMultiset | lib/scrobbler/base.rb:73-90 | signed: the sent pairs are the remaining pairs plus one `api_sig` pair at the end |
| Request.PairsCarryKey | lib/scrobbler/base.rb:68-90 | every request carries exactly one `api_key` pair and one `method` pair. They hold the configured key and the method name, whatever the caller passed under them. `:signed` is never sent |
| Request.SignedLayout | lib/scrobbler/base.rb:73-85 | signed: the sorted remaining pairs, then `api_sig` holding the digest of their joined texts followed by the secret |
| Request.UnsignedLayout | lib/scrobbler/base.rb:86-89 | unsigned: the caller's pairs in the hash's order without `:signed`, with `api_key` and `method` overwritten in place or added at the end. No `api_sig` unless the caller sent one |
| Request.CallerPairsKept | lib/scrobbler/base.rb:68-90 | every caller pair under any other key, `:api_key` and `:method` included, is sent unchanged |
| Request.CallerPairRemains | lib/scrobbler/base.rb:68-73 | a caller pair under any key but `:signed`, `'api_key'` and `'method'` is still in the hash after `delete :signed` |
| Request.SignedRequestOrderFree | lib/scrobbler/base.rb:73-91 | two hashes with the same pairs in any order give the same signed path, when no two remaining keys share their text |
| Request.ValueChangesSignature | lib/scrobbler/base.rb:68-79 | two caller hashes that differ only in the value text under one key, other than `:signed`, `'api_key'` and `'method'`, give different digest inputs |
| Constanize.SplitScope | lib/scrobbler/base.rb:32 | the fields of `split('::')` before its trailing empty fields are dropped: at least one, even for the empty string, for which `split` returns none after the drop |
| Constanize.DropTrailingEmpty | lib/scrobbler/base.rb:32 | `split` keeps a prefix of the fields whose last is non-empty, and drops only empty fields |
| Constanize.SlashLead | lib/scrobbler/base.rb:30-31 | for a byte `c` that is neither `/` nor a newline, the first `gsub` turns `/c` into `::` and `c` upper-cased, and keeps a leading `c` as it is |
| Constanize.SlashHead | lib/scrobbler/base.rb:30-31 | `/` before a name without `/` becomes `::` and the name with its first byte upper-cased |
| Constanize.ScopedSlash | lib/scrobbler/base.rb:30-31 | in `p/e`, with no `/` in `p` or `e`, the `/` becomes `::` and `e`'s first byte is upper-cased |
| Constanize.SlashToScopeId | lib/scrobbler/base.rb:30-31 | text without `/` is left unchanged by the first `gsub` |
| Constanize.CamelizeLeading | lib/scrobbler/base.rb:32 | at a line start the second `gsub` upper-cases the first byte and keeps text without `_` or newline unchanged |
| Constanize.CamelLead | lib/scrobbler/base.rb:32 | for a byte `c` that is neither `_` nor a newline: at a line start, `::`, `c` upper-cased and `x` camel-case to `::` followed by what `c` and `x` camel-case to |
| Constanize.ScopedCamel | lib/scrobbler/base.rb:32 | `p::u` with no `_` or newline in `p` camel-cases to `p` with its first byte upper-cased, `::`, and `u` camel-cased |
| Constanize.CamelizeId | lib/scrobbler/base.rb:32 | text without `_` or newline, not at a line start, is left unchanged by the second `gsub` |
| Constanize.SplitScopeId | lib/scrobbler/base.rb:32 | text without `:` is one field |
| Constanize.SplitScopeHead | lib/scrobbler/base.rb:32 | the first field is a prefix of the string |
| Constanize.SplitAfterScope | lib/scrobbler/base.rb:32 | `::` then a name without `:` splits into an empty field and the name |
| Constanize.ScopeLead | lib/scrobbler/base.rb:32-33 | a leading `::` before a name adds exactly one empty name in front. The name's own first field is non-empty, so that empty name is the one the `shift` removes |
| Constanize.Constanize | lib/scrobbler/base.rb:29-40 | succeeds exactly when every prefix of the names is a defined constant, returning the names. Otherwise it reports the first name not defined in the constant reached so far |
| Constanize.SlashToScopeKeeps | lib/scrobbler/base.rb:30-31 | text without `/` passes through the first `gsub` unchanged |
| Constanize.CamelizeKeeps | lib/scrobbler/base.rb:32 | text without `_` or newline, not at a line start, passes through the second `gsub` unchanged |
| Constanize.UnderscoreUpcases | lib/scrobbler/base.rb:32 | off a line start, after text without `_` or newline, `_c` becomes `c` upper-cased for any `c` but a newline |
| Constanize.CamelizeNoColon | lib/scrobbler/base.rb:32 | the second `gsub` never creates a `:` |
| Constanize.SplitScopeKeeps | lib/scrobbler/base.rb:32 | text without `:` in front of a string joins the first field |
| Constanize.SplitScopeJoin | lib/scrobbler/base.rb:32 | joining the fields of `split('::')` with `::` gives the string back |
| Constanize.SplitScopeFields | lib/scrobbler/base.rb:32 | no field holds `::` |
| Constanize.SplitScopeLeftmost | lib/scrobbler/base.rb:32 | the split is the leftmost one: no field but the last ends with `:` |
| Constanize.NamesHaveNoScope | lib/scrobbler/base.rb:29-33 | no name looked up holds `::` |
| Constanize.ScopedNames | lib/scrobbler/base.rb:29-33 | for a non-empty `p` without `/`, `_`, `:` or newline and a non-empty `e` without `/`, `:` or newline: `p/e` gives two names, `p` with its first byte upper-cased and the camel-cased `e` with its first byte upper-cased |
| Constanize.ElementClassNames | lib/scrobbler/base.rb:43 | for a non-empty `e` without `/`, `:` or newline: `scrobbler/e` names `Scrobbler` and the camel-cased `e` with its first byte upper-cased |
| Constanize.TopTagsClass | lib/scrobbler/base.rb:29-33 | `scrobbler/top_tags` names `Scrobbler::TopTags` |
| Constanize.ArtistClass | lib/scrobbler/base.rb:29-33 | `scrobbler/artist` names `Scrobbler::Artist` |
| Constanize.LeadingSlash | lib/scrobbler/base.rb:30-33 | for a non-empty word not starting with `/`, `_`, `:` or a newline: a leading `/` names the same constant as the word without it (the empty first name is shifted off) |
| Response.Named | lib/scrobbler/base.rb:48-49 | the nodes with a name are at most all of them |
| Response.BuildAll | lib/scrobbler/base.rb:50 | one object per element |
| Response.BuildAllAt | lib/scrobbler/base.rb:50 | object `i` is built from element `i` |
| Response.NamedAppend | lib/scrobbler/base.rb:48-49 | the elements with a name in two lists of children are those of each, in order |
| Response.MembersAppend | lib/scrobbler/base.rb:46-52 | the elements collected from two lists of root children are those from each, in order |
| Response.Collect | lib/scrobbler/base.rb:45-53 | the nested loops build one object per matching grandchild, in document order |
| Response.Get | lib/scrobbler/base.rb:42-54 | fails with the unknown class exactly when the name does not resolve, reporting the first missing name. Otherwise it fails with the request's error exactly when the request fails. Otherwise it returns the objects built from the matching grandchildren of the reply's root |
| Response.MembersIff | lib/scrobbler/base.rb:46-52 | a node is collected exactly when it has the element name and is a child of a root child with the parent name |
| Response.NamedIff | lib/scrobbler/base.rb:48-49 | a node is kept exactly when it is among the children and has the name |
| Response.NoParentNoMembers | lib/scrobbler/base.rb:46-53 | no root child with the parent name: nothing is collected, so the list of objects is empty |
| Response.MembersCount | lib/scrobbler/base.rb:46-52 | no more objects than the parent nodes have children |
| Response.TracksExample | lib/scrobbler/base.rb:46-53 | `tracks`/`track` on `<lfm><tracks><track/><total/><track/></tracks></lfm>` gives the two tracks in order |
| Entity.OverlaySnoc | lib/scrobbler/base.rb:111-112 | assigning one more pair sets one more variable |
| Entity.Entity.PopulateData | lib/scrobbler/base.rb:110-114 | assigns every pair in order when every key can name an instance variable. Otherwise it stops at the first key that cannot, with the earlier pairs assigned |
| Entity.OverlayLast | lib/scrobbler/base.rb:111-113 | the last pair naming a variable decides its value |
| Entity.OverlayUntouched | lib/scrobbler/base.rb:111-113 | a variable no key names keeps its value, or stays unset |
| Entity.OverlayKeys | lib/scrobbler/base.rb:110-114 | the variables set afterwards are those set before plus one per key |
| Entity.PopulateExample | lib/scrobbler/base.rb:110-114 | `:name` and `'url'` on a new object set `@name` and `@url` and nothing else |
| Entity.SpaceRejected | lib/scrobbler/base.rb:112 | a key with a space cannot name an instance variable |
| Entity.IvarKeyEdges | lib/scrobbler/base.rb:112 | the empty key names the bare `@`, which is accepted; a key starting with a digit or with `@` is rejected |
| Entity.SameTextSameVariable | lib/scrobbler/base.rb:112 | `:name` and `'name'` set the same variable, and the later pair wins |

## Left out

- The HTTP connection and the call that sends the path (lines 20-22, 92) are not modelled. `Get` takes the reply's root element from the parameter `respond`. The request method (`get`/`post`) does not change the path and is dropped.
- MD5 is not modelled. It is the function parameter `digest`.
- XML parsing is not modelled. A reply is a tree of `Node`s (name and children); attributes and text are not used by this code.
- `new_from_libxml` belongs to the entity classes and is the parameter `build`.
- `Base.mixins` (lines 95-108) is not modelled: it only extends and includes Ruby modules.
- The thin wrappers `post_request`, `get_response`, `request` and `call` (lines 56-58, 116-137) are not modelled. They forward to the modelled operations.
- The setters `Base.api_key=` and `Base.secret=` (lines 12-18) are not modelled. The values they set are the `Credentials` parameter.
- The `ArgumentError` checks on the argument types (lines 65-66) are left out. The method name arrives as its text, and the parameters are always a hash.
- Parameter values are modelled as their `to_s` text, `true`, `false` or `nil`. Other Ruby objects are held as their text, which is all `sanitize`, `join` and truthiness look at.
- The model uses Ruby 1.9's insertion order for `Hash`. Ruby 1.8's hash order is unspecified. Under it the order of the unsigned query is open. So is the order in which `populate_data` (lines 111-112) assigns: which of `:name` and `'name'` wins (`Entity.OverlayLast`, `Entity.SameTextSameVariable`), and which pairs are assigned before a `NameError` (`Entity.Entity.PopulateData`). The signed query does not depend on the order when no two remaining keys share their text (`Request.SignedRequestOrderFree`).
- Constant lookup is modelled as a set of defined paths. Lookups through ancestors, autoloading and a user-defined `const_missing` returning a value are not modelled. A name that is not a valid constant name is treated like an undefined one; Ruby raises `NameError` for both.
- `$KCODE = 'u'` is not modelled: strings are bytes, and `upcase` changes only ASCII letters.
- `Entity.Entity.PopulateData`: keys are Symbols or Strings only. The identifier rule is Ruby 1.8's for keys that are well-formed UTF-8: letters, digits, `_` and bytes from 0x80 up, not starting with a digit, the empty key included (it names the bare `@`). A stray continuation byte, which Ruby rejects, is accepted here.
- `Signer.SortByKey`: Ruby's `sort` leaves the order of a Symbol and a String key with the same text open. The model keeps their input order.
- `Request.SignedRequestOrderFree`: proved only when no two remaining keys share their text. When two do, Ruby's sort may order them either way.
- The API key and the secret are taken to be Strings. A class variable set to `nil` or another non-String object is not modelled. Ruby sends `nil` as an empty `api_key` value, and raises `TypeError` when it appends a non-String `@@secret`.

=== FILE: constanize.dfy ===
/** `Base.constanize` (lib/scrobbler/base.rb): a path such as
    `scrobbler/top_tags` turned into the constant names `Scrobbler`,
    `TopTags`, and those names looked up one inside the other from `Object`.
    The three steps of the name transform are the two `gsub` calls and the
    `split('::')` with its `shift`; the constants Ruby knows are a registry of
    defined paths. */
module Constanize {
  import opened RubyString
  import opened Wrappers

  /** `gsub(/\/(.?)/) { "::#{$1.upcase}" }`: every `/` becomes `::` and the
      byte after it, unless it is a newline (which `.` does not match), is
      upper-cased and consumed with it. */
  function SlashToScope(s: Bytes): Bytes {
    if s == [] then []
    else if s[0] == '/' then
      if |s| >= 2 && s[1] != LF then "::" + [Upcase(s[1])] + SlashToScope(s[2..])
      else "::" + SlashToScope(s[1..])
    else [s[0]] + SlashToScope(s[1..])
  }

  /** `gsub(/(?:^|_)(.)/) { $1.upcase }` from a position where `^` holds
      exactly when `lineStart` does. At a line start the byte there is
      upper-cased (even an underscore); elsewhere an underscore and the byte
      after it become that byte upper-cased; a newline is never consumed. */
  function Camelize(s: Bytes, lineStart: bool): Bytes {
    if s == [] then []
    else if lineStart && s[0] != LF then [Upcase(s[0])] + Camelize(s[1..], false)
    else if s[0] == '_' && |s| >= 2 && s[1] != LF then [Upcase(s[1])] + Camelize(s[2..], false)
    else [s[0]] + Camelize(s[1..], s[0] == LF)
  }

  /** `split('::')` before it drops trailing empty fields: the fields between
      the occurrences of `::` found left to right without overlap. */
  function SplitScope(s: Bytes): (r: seq<Bytes>)
    ensures |r| >= 1
  {
    if |s| < 2 then [s]
    else if s[0] == ':' && s[1] == ':' then [[]] + SplitScope(s[2..])
    else
      var t := SplitScope(s[1..]);
      [[s[0]] + t[0]] + t[1..]
  }

  /** The inverse direction: fields written back with `::` between them. */
  function JoinScope(fields: seq<Bytes>): Bytes {
    if fields == [] then []
    else if |fields| == 1 then fields[0]
    else fields[0] + "::" + JoinScope(fields[1..])
  }

  /** `split` drops the empty fields at the end. */
  function DropTrailingEmpty(fields: seq<Bytes>): (r: seq<Bytes>)
    ensures r <= fields
    ensures r == [] || r[|r| - 1] != []
    ensures forall i | |r| <= i < |fields| :: fields[i] == []
  {
    if fields == [] then []
    else
      var rest := DropTrailingEmpty(fields[1..]);
      if rest == [] && fields[0] == [] then []
      else [fields[0]] + rest
  }

  /** The names `constanize` looks up: the transformed word split on `::`,
      without one leading empty name. */
  function ConstantNames(word: Bytes): seq<Bytes> {
    var names := DropTrailingEmpty(SplitScope(Camelize(SlashToScope(word), true)));
    if names != [] && names[0] == [] then names[1..] else names
  }

  /** The constants Ruby knows, each by its path from `Object`; `[]` is `Object`. */
  datatype Registry = Registry(defined: set<seq<Bytes>>)

  /** `const_missing` raises `NameError` for the first name not defined in
      the constant reached so far. */
  datatype ConstError = Uninitialized(scope: seq<Bytes>, name: Bytes)

  /** Every prefix of the names is a defined constant. */
  predicate Resolves(registry: Registry, names: seq<Bytes>) {
    forall i | 1 <= i <= |names| :: names[..i] in registry.defined
  }

  /** `name` is the first of `names` that is not defined, in `scope`. */
  predicate FirstMissing(registry: Registry, names: seq<Bytes>, e: ConstError) {
    && |e.scope| < |names|
    && e.scope == names[..|e.scope|]
    && e.name == names[|e.scope|]
    && e.scope + [e.name] !in registry.defined
    && forall j | 1 <= j <= |e.scope| :: names[..j] in registry.defined
  }

  /** `Base.constanize`: looks each name up in the constant reached so far,
      starting from `Object`. */
  method Constanize(registry: Registry, word: Bytes) returns (r: Result<seq<Bytes>, ConstError>)
    ensures r.Success? <==> Resolves(registry, ConstantNames(word))
    ensures r.Success? ==> r.value == ConstantNames(word)
    ensures r.Failure? ==> FirstMissing(registry, ConstantNames(word), r.error)
  {
    var names := ConstantNames(word);
    var constant: seq<Bytes> := [];
    var i := 0;
    while i < |names|
      invariant 0 <= i <= |names|
      invariant constant == names[..i]
      invariant forall j | 1 <= j <= i :: names[..j] in registry.defined
    {
      if constant + [names[i]] in registry.defined {
        assert names[..i + 1] == constant + [names[i]];
        constant := constant + [names[i]];
      } else {
        r := Failure(Uninitialized(constant, names[i]));
        assert names[..i + 1] == constant + [names[i]];
        return;
      }
      i := i + 1;
    }
    assert constant == names;
    r := Success(constant);
  }

  lemma {:induction false} SlashToScopeKeeps(a: Bytes, t: Bytes)
    requires '/' !in a
    ensures SlashToScope(a + t) == a + SlashToScope(t)
  {
    if a != [] {
      assert (a + t)[1..] == a[1..] + t;
      SlashToScopeKeeps(a[1..], t);
    } else {
      assert a + t == t;
    }
  }

  lemma {:induction false} CamelizeKeeps(a: Bytes, t: Bytes)
    requires '_' !in a && LF !in a
    ensures Camelize(a + t, false) == a + Camelize(t, false)
  {
    if a != [] {
      assert (a + t)[1..] == a[1..] + t;
      CamelizeKeeps(a[1..], t);
    } else {
      assert a + t == t;
    }
  }

  /** Off a line start, `_` and the byte after it, unless that is a newline,
      become that byte upper-cased. */
  lemma UnderscoreUpcases(a: Bytes, c: Byte, t: Bytes)
    requires '_' !in a && LF !in a && c != LF
    ensures Camelize(a + (['_', c] + t), false) == a + ([Upcase(c)] + Camelize(t, false))
  {
    var u := ['_', c] + t;
    CamelizeKeeps(a, u);
    assert u[1] == c && u[2..] == t;
  }

  lemma {:induction false} CamelizeNoColon(s: Bytes, lineStart: bool)
    requires ':' !in s
    ensures ':' !in Camelize(s, lineStart)
  {
    if s != [] {
      if lineStart && s[0] != LF {
        CamelizeNoColon(s[1..], false);
      } else if s[0] == '_' && |s| >= 2 && s[1] != LF {
        CamelizeNoColon(s[2..], false);
      } else {
        CamelizeNoColon(s[1..], s[0] == LF);
      }
    }
  }

  lemma {:induction false} SlashToScopeId(a: Bytes)
    requires '/' !in a
    ensures SlashToScope(a) == a
  {
    if a != [] {
      SlashToScopeId(a[1..]);
    }
  }

  lemma {:induction false} CamelizeId(a: Bytes)
    requires '_' !in a && LF !in a
    ensures Camelize(a, false) == a
  {
    if a != [] {
      CamelizeId(a[1..]);
    }
  }

  lemma {:induction false} SplitScopeId(a: Bytes)
    requires ':' !in a
    ensures SplitScope(a) == [a]
  {
    if |a| >= 2 {
      SplitScopeId(a[1..]);
      assert [a[0]] + a[1..] == a;
    }
  }

  lemma {:induction false} SplitScopeKeeps(a: Bytes, t: Bytes)
    requires ':' !in a
    ensures SplitScope(a + t) == [a + SplitScope(t)[0]] + SplitScope(t)[1..]
  {
    var st := SplitScope(t);
    if a == [] {
      assert a + t == t && a + st[0] == st[0];
      assert [st[0]] + st[1..] == st;
    } else if |a + t| < 2 {
      assert a + t == a && |t| == 0;
      assert st == [t];
      assert a + st[0] == a;
      assert [a] + st[1..] == [a];
    } else {
      assert (a + t)[1..] == a[1..] + t;
      SplitScopeKeeps(a[1..], t);
      assert a[0] in a;
      assert [a[0]] + (a[1..] + st[0]) == a + st[0];
    }
  }

  /** No `::` inside `f`. */
  predicate NoScope(f: Bytes) {
    forall i | 0 <= i < |f| - 1 :: !(f[i] == ':' && f[i + 1] == ':')
  }

  lemma JoinScopeCons(c: Byte, t: seq<Bytes>)
    requires t != []
    ensures JoinScope([[c] + t[0]] + t[1..]) == [c] + JoinScope(t)
  {
    var r := [[c] + t[0]] + t[1..];
    if |t| > 1 {
      assert r[1..] == t[1..];
    }
  }

  /** Splitting on `::` and joining the fields back with `::` gives the
      string back. */
  lemma {:induction false} SplitScopeJoin(s: Bytes)
    ensures JoinScope(SplitScope(s)) == s
  {
    if |s| < 2 {
    } else if s[0] == ':' && s[1] == ':' {
      var t := SplitScope(s[2..]);
      SplitScopeJoin(s[2..]);
      var empty: Bytes := [];
      var fields := [empty] + t;
      assert fields[0] == empty && fields[1..] == t;
      assert JoinScope(fields) == empty + "::" + JoinScope(t);
      assert s == "::" + s[2..];
    } else {
      SplitScopeJoin(s[1..]);
      JoinScopeCons(s[0], SplitScope(s[1..]));
      assert s == [s[0]] + s[1..];
    }
  }

  /** The first field is where the string starts. */
  lemma {:induction false} SplitScopeHead(s: Bytes)
    ensures SplitScope(s)[0] <= s
  {
    if |s| >= 2 && !(s[0] == ':' && s[1] == ':') {
      SplitScopeHead(s[1..]);
    }
  }

  /** An empty first field with more to follow means the text starts with `::`. */
  lemma SplitScopeEmptyHead(u: Bytes)
    requires |SplitScope(u)| >= 2 && SplitScope(u)[0] == []
    ensures |u| >= 2 && u[0] == ':' && u[1] == ':'
  {
  }

  /** No field but the last ends with `:`. */
  predicate Leftmost(r: seq<Bytes>) {
    forall i | 0 <= i < |r| - 1 :: r[i] == [] || r[i][|r[i]| - 1] != ':'
  }

  /** The split is the leftmost one: no field but the last ends with `:`, as
      that `:` and the `::` after the field would be an earlier `::`. */
  lemma {:induction false} SplitScopeLeftmost(s: Bytes)
    ensures Leftmost(SplitScope(s))
  {
    var r := SplitScope(s);
    if |s| < 2 {
    } else if s[0] == ':' && s[1] == ':' {
      SplitScopeLeftmost(s[2..]);
      assert forall i | 0 < i < |r| :: r[i] == SplitScope(s[2..])[i - 1];
    } else {
      var t := SplitScope(s[1..]);
      SplitScopeLeftmost(s[1..]);
      assert r[0] == [s[0]] + t[0];
      forall i | 0 <= i < |r| - 1 ensures r[i] == [] || r[i][|r[i]| - 1] != ':' {
        assert |r| == |t|;
        if i > 0 {
          assert r[i] == t[i];
        } else if t[0] == [] {
          SplitScopeEmptyHead(s[1..]);
          assert r[0] == [s[0]] && s[0] != ':';
        } else {
          assert r[0][|r[0]| - 1] == t[0][|t[0]| - 1];
        }
      }
    }
  }

  /** No field holds `::`. */
  lemma {:induction false} SplitScopeFields(s: Bytes)
    ensures forall f | f in SplitScope(s) :: NoScope(f)
  {
    if |s| < 2 {
    } else if s[0] == ':' && s[1] == ':' {
      SplitScopeFields(s[2..]);
    } else {
      var t := SplitScope(s[1..]);
      SplitScopeFields(s[1..]);
      SplitScopeHead(s[1..]);
      var f := [s[0]] + t[0];
      assert t[0] in t;
      forall i | 0 <= i < |f| - 1 ensures !(f[i] == ':' && f[i + 1] == ':') {
        if i > 0 {
          assert f[i] == t[0][i - 1] && f[i + 1] == t[0][i];
        }
      }
      forall g | g in [f] + t[1..] ensures NoScope(g) {
        if g != f {
          assert g in t[1..];
          assert g in t;
        }
      }
    }
  }

  /** Every name `constanize` looks up is free of `::`. */
  lemma NamesHaveNoScope(word: Bytes)
    ensures forall n | n in ConstantNames(word) :: NoScope(n)
  {
    var fields := SplitScope(Camelize(SlashToScope(word), true));
    SplitScopeFields(Camelize(SlashToScope(word), true));
    var kept := DropTrailingEmpty(fields);
    forall n | n in ConstantNames(word) ensures n in fields {
      assert n in kept;
    }
  }

  lemma SlashHead(e: Bytes)
    requires e != [] && e[0] != LF && '/' !in e
    ensures SlashToScope("/" + e) == "::" + ([Upcase(e[0])] + e[1..])
  {
    assert e == [e[0]] + e[1..];
    SlashLead(e[0], e[1..]);
    assert forall b | b in e[1..] :: b in e;
    SlashToScopeId(e[1..]);
  }

  lemma CamelizeLeading(c: Byte, a: Bytes, t: Bytes)
    requires c != LF && '_' !in a && LF !in a
    ensures Camelize([c] + (a + t), true) == [Upcase(c)] + (a + Camelize(t, false))
  {
    assert ([c] + (a + t))[1..] == a + t;
    CamelizeKeeps(a, t);
  }

  /** `::` followed by a name without `:` splits into an empty field and the name. */
  lemma SplitAfterScope(c: Bytes)
    requires ':' !in c
    ensures SplitScope("::" + c) == [[], c]
  {
    var q := "::" + c;
    assert q[0] == ':' && q[1] == ':' && q[2..] == c;
    SplitScopeId(c);
  }

  /** `/` before an element name becomes `::` and upper-cases the name's first byte. */
  lemma ScopedSlash(p: Bytes, e: Bytes)
    requires '/' !in p
    requires e != [] && '/' !in e && LF !in e
    ensures SlashToScope(p + ("/" + e)) == p + ("::" + ([Upcase(e[0])] + e[1..]))
  {
    SlashToScopeKeeps(p, "/" + e);
    SlashHead(e);
  }

  /** Camel-casing a scope word, `::` and the rest upper-cases the word's
      first byte and camel-cases the rest. */
  lemma ScopedCamel(p: Bytes, u: Bytes)
    requires p != [] && '_' !in p && LF !in p
    ensures Camelize(p + ("::" + u), true) == ([Upcase(p[0])] + p[1..]) + ("::" + Camelize(u, false))
  {
    var s := p + ("::" + u);
    var q := p[1..];
    assert s[0] == p[0] && s[1..] == q + ("::" + u);
    assert Camelize(s, true) == [Upcase(p[0])] + Camelize(q + ("::" + u), false);
    assert forall b | b in q :: b in p;
    CamelizeKeeps(q, "::" + u);
    CamelizeKeeps("::", u);
  }

  /** A scope word, a `/` and an element name give two names: the word with
      its first byte upper-cased, and the element camel-cased with its first
      byte upper-cased. */
  lemma ScopedNames(p: Bytes, e: Bytes)
    requires p != [] && '/' !in p && '_' !in p && ':' !in p && LF !in p
    requires e != [] && '/' !in e && ':' !in e && LF !in e
    ensures ConstantNames(p + ("/" + e)) ==
            [[Upcase(p[0])] + p[1..], Camelize([Upcase(e[0])] + e[1..], false)]
  {
    var upper := [Upcase(e[0])] + e[1..];
    ScopedSlash(p, e);
    ScopedCamel(p, upper);
    var c := Camelize(upper, false);
    var word := [Upcase(p[0])] + p[1..];
    assert ':' !in word;
    CamelizeNoColon(upper, false);
    SplitScopeKeeps(word, "::" + c);
    SplitAfterScope(c);
    assert word + [] == word;
    var fields: seq<Bytes> := [word, c];
    assert fields[1..] == [c];
    assert DropTrailingEmpty(fields[1..]) == [c];
    assert DropTrailingEmpty(fields) == fields;
  }

  /** The class `Base.get` builds its results with: `scrobbler/` and an
      element name give `Scrobbler` and the element camel-cased, its first
      byte upper-cased. */
  lemma ElementClassNames(e: Bytes)
    requires e != [] && '/' !in e && ':' !in e && LF !in e
    ensures ConstantNames("scrobbler/" + e) ==
            ["Scrobbler", Camelize([Upcase(e[0])] + e[1..], false)]
  {
    var p: Bytes := "scrobbler";
    assert "scrobbler/" + e == p + ("/" + e);
    ScopedNames(p, e);
    assert [Upcase(p[0])] + p[1..] == "Scrobbler";
  }

  lemma TagsCamel()
    ensures Camelize("_tags", false) == "Tags"
  {
    var tags: Bytes := "_tags";
    assert tags[0] == '_' && tags[1] == 't' && tags[2..] == "ags";
    CamelizeId("ags");
  }

  lemma TopTagsCamel()
    ensures Camelize("Top_tags", false) == "TopTags"
  {
    assert "Top_tags" == "Top" + "_tags";
    CamelizeKeeps("Top", "_tags");
    TagsCamel();
  }

  /** `Scrobbler::TopTags` for `top_tags`. */
  lemma TopTagsClass()
    ensures ConstantNames("scrobbler/top_tags") == ["Scrobbler", "TopTags"]
  {
    var e: Bytes := "top_tags";
    assert "scrobbler/top_tags" == "scrobbler/" + e;
    ElementClassNames(e);
    UpcaseFirst('t', "op_tags");
    TopTagsCamel();
  }

  lemma UpcaseFirst(c: Byte, rest: Bytes)
    requires IsLower(c)
    ensures ([c] + rest)[1..] == rest
    ensures [Upcase(([c] + rest)[0])] + ([c] + rest)[1..] == [(c as int - 32) as char] + rest
  {
    assert ([c] + rest)[1..] == rest;
  }

  /** `Scrobbler::Artist` for `artist`. */
  lemma ArtistClass()
    ensures ConstantNames("scrobbler/artist") == ["Scrobbler", "Artist"]
  {
    var e: Bytes := "artist";
    assert "scrobbler/artist" == "scrobbler/" + e;
    ElementClassNames(e);
    UpcaseFirst('a', "rtist");
    ArtistCamel();
  }

  lemma ArtistCamel()
    ensures Camelize("Artist", false) == "Artist"
  {
    CamelizeId("Artist");
  }

  /** `/` then a byte: `::` and the byte upper-cased; the byte alone stays. */
  lemma SlashLead(c: Byte, x: Bytes)
    requires c != LF && c != '/'
    ensures SlashToScope("/" + ([c] + x)) == "::" + ([Upcase(c)] + SlashToScope(x))
    ensures SlashToScope([c] + x) == [c] + SlashToScope(x)
  {
    var s := "/" + ([c] + x);
    assert s[0] == '/' && s[1] == c && s[2..] == x;
    assert SlashToScope(s) == "::" + [Upcase(c)] + SlashToScope(x);
    assert ([c] + x)[1..] == x;
  }

  /** At a line start, `::` and an upper-cased byte camel-case to `::` and
      the same text as the byte itself would. */
  lemma CamelLead(c: Byte, x: Bytes)
    requires c != LF && c != '_'
    ensures Camelize("::" + ([Upcase(c)] + x), true) == "::" + Camelize([c] + x, true)
  {
    var u := Upcase(c);
    var a := "::" + ([u] + x);
    assert a[1..] == ":" + ([u] + x) && a[2..] == [u] + x;
    assert ([u] + x)[1..] == x && ([c] + x)[1..] == x;
    assert u != '_' && u != LF;
    assert Camelize(a[2..], false) == [u] + Camelize(x, false);
    assert Camelize(a[1..], false) == [':'] + Camelize(a[2..], false);
  }

  /** A leading `::` before a name adds one empty name in front. */
  lemma ScopeLead(b: Bytes)
    requires b != [] && b[0] != ':'
    ensures DropTrailingEmpty(SplitScope("::" + b)) == [[]] + DropTrailingEmpty(SplitScope(b))
    ensures DropTrailingEmpty(SplitScope(b)) != [] && DropTrailingEmpty(SplitScope(b))[0] != []
  {
    var f := SplitScope(b);
    assert ("::" + b)[2..] == b;
    assert SplitScope("::" + b) == [[]] + f;
    assert b == [b[0]] + b[1..];
    SplitScopeKeeps([b[0]], b[1..]);
    assert f[0] != [];
    assert ([[]] + f)[1..] == f;
  }

  /** A leading `/` leaves no empty first name behind: it names the same
      constant as the word without it. */
  lemma LeadingSlash(w: Bytes)
    requires w != [] && w[0] != LF && w[0] != '/' && w[0] != '_' && w[0] != ':'
    ensures ConstantNames("/" + w) == ConstantNames(w)
  {
    var x := SlashToScope(w[1..]);
    assert w == [w[0]] + w[1..];
    SlashLead(w[0], w[1..]);
    CamelLead(w[0], x);
    var b := Camelize([w[0]] + x, true);
    assert b == [Upcase(w[0])] + Camelize(x, false);
    ScopeLead(b);
  }
}

=== FILE: entity.dfy ===
/** `Base#populate_data` (lib/scrobbler/base.rb): an entity object takes every
    pair of a hash as an instance variable named after the key. The object's
    instance variables are a map from their names, `@` included, to values. */
module Entity {
  import opened RubyString
  import opened Wrappers
  import opened RubyHash

  /** A byte that may appear in a Ruby 1.8 identifier: a letter, a digit, `_`,
      or a byte of a multi-byte character. Any byte from 0x80 up is accepted,
      which is Ruby's rule for keys that are well-formed UTF-8. */
  predicate IsIdentByte(b: Byte) {
    IsAlnum(b) || b == '_' || b as int >= 0x80
  }

  /** Can `@` followed by `key` name an instance variable? The rest must be
      identifier bytes, not starting with a digit; a second `@` would make it
      a class variable. Ruby 1.8 takes a bare `@` as an instance variable
      name, so the empty key is accepted. */
  predicate IsIvarKey(key: Bytes) {
    (key == [] || !IsDigit(key[0])) && forall i | 0 <= i < |key| :: IsIdentByte(key[i])
  }

  /** `"@#{key.to_s}"`. */
  function IvarName(k: Key): Bytes {
    "@" + k.ToS()
  }

  /** The instance variables after assigning every pair, in order. */
  function Overlay(m: map<Bytes, Value>, data: Params): map<Bytes, Value>
    decreases |data|
  {
    if data == [] then m
    else Overlay(m[IvarName(data[0].0) := data[0].1], data[1..])
  }

  /** Assigning one more pair updates one variable. */
  lemma {:induction false} OverlaySnoc(m: map<Bytes, Value>, data: Params, x: Pair)
    ensures Overlay(m, data + [x]) == Overlay(m, data)[IvarName(x.0) := x.1]
    decreases |data|
  {
    if data == [] {
      assert data + [x] == [x];
    } else {
      assert (data + [x])[1..] == data[1..] + [x];
      OverlaySnoc(m[IvarName(data[0].0) := data[0].1], data[1..], x);
    }
  }

  /** An object whose instance variables `populate_data` sets. */
  class Entity {
    var fields: map<Bytes, Value>

    constructor()
      ensures fields == map[]
    {
      fields := map[];
    }

    /** `populate_data`: `instance_variable_set` for every pair in the hash's
        order. A key whose text cannot name an instance variable raises
        `NameError`; the pairs before it stay assigned. */
    method PopulateData(data: Params) returns (rejected: Option<Bytes>)
      modifies this
      ensures rejected.None? <==> forall k | 0 <= k < |data| :: IsIvarKey(data[k].0.ToS())
      ensures rejected.None? ==> fields == Overlay(old(fields), data)
      ensures rejected.Some? ==>
                exists k | 0 <= k < |data| ::
                  && !IsIvarKey(data[k].0.ToS())
                  && (forall j | 0 <= j < k :: IsIvarKey(data[j].0.ToS()))
                  && rejected.value == IvarName(data[k].0)
                  && fields == Overlay(old(fields), data[..k])
    {
      var i := 0;
      while i < |data|
        invariant 0 <= i <= |data|
        invariant forall j | 0 <= j < i :: IsIvarKey(data[j].0.ToS())
        invariant fields == Overlay(old(fields), data[..i])
      {
        var (key, value) := data[i];
        if !IsIvarKey(key.ToS()) {
          return Some(IvarName(key));
        }
        assert data[..i + 1] == data[..i] + [data[i]];
        OverlaySnoc(old(fields), data[..i], data[i]);
        fields := fields[IvarName(key) := value];
        i := i + 1;
      }
      assert data[..i] == data;
      rejected := None;
    }
  }

  /** The last pair whose key names a variable decides its value. */
  lemma {:induction false} OverlayLast(m: map<Bytes, Value>, data: Params, j: nat)
    requires j < |data|
    requires forall k | j < k < |data| :: IvarName(data[k].0) != IvarName(data[j].0)
    ensures IvarName(data[j].0) in Overlay(m, data)
    ensures Overlay(m, data)[IvarName(data[j].0)] == data[j].1
    decreases |data|
  {
    if j == 0 {
      OverlayUntouched(m[IvarName(data[0].0) := data[0].1], data[1..], IvarName(data[0].0));
    } else {
      OverlayLast(m[IvarName(data[0].0) := data[0].1], data[1..], j - 1);
    }
  }

  /** A variable no key names keeps whatever it held before, or stays unset. */
  lemma {:induction false} OverlayUntouched(m: map<Bytes, Value>, data: Params, n: Bytes)
    requires forall k | 0 <= k < |data| :: IvarName(data[k].0) != n
    ensures n in Overlay(m, data) <==> n in m
    ensures n in m ==> Overlay(m, data)[n] == m[n]
    decreases |data|
  {
    if data != [] {
      OverlayUntouched(m[IvarName(data[0].0) := data[0].1], data[1..], n);
    }
  }

  /** The variables set afterwards: those set before and one per key. */
  lemma {:induction false} OverlayKeys(m: map<Bytes, Value>, data: Params)
    ensures Overlay(m, data).Keys == m.Keys + set k | 0 <= k < |data| :: IvarName(data[k].0)
    decreases |data|
  {
    if data != [] {
      var m' := m[IvarName(data[0].0) := data[0].1];
      OverlayKeys(m', data[1..]);
      var rest := set k | 0 <= k < |data[1..]| :: IvarName(data[1..][k].0);
      var all := set k | 0 <= k < |data| :: IvarName(data[k].0);
      assert all == {IvarName(data[0].0)} + rest by {
        forall n | n in all ensures n in {IvarName(data[0].0)} + rest {
          var k :| 0 <= k < |data| && n == IvarName(data[k].0);
          if k > 0 {
            assert n == IvarName(data[1..][k - 1].0);
          }
        }
      }
    }
  }

  /** `populate_data(:name => 'Cher', 'url' => u)` on a new object sets `@name`
      and `@url` and nothing else. */
  lemma PopulateExample(u: Value)
    ensures Overlay(map[], [(Sym("name"), Text("Cher")), (Str("url"), u)]) ==
            map["@name" := Text("Cher"), "@url" := u]
  {
    var data := [(Sym("name"), Text("Cher")), (Str("url"), u)];
    assert IvarName(data[0].0) == "@name" && IvarName(data[1].0) == "@url";
    var m1 := map[]["@name" := Text("Cher")];
    assert data[1..] == [(Str("url"), u)];
    assert Overlay(map[], data) == Overlay(m1, data[1..]);
    assert Overlay(m1, data[1..]) == Overlay(m1["@url" := u], data[1..][1..]);
    assert data[1..][1..] == [];
  }

  /** A key with a space in it cannot name a variable. */
  lemma SpaceRejected()
    ensures !IsIvarKey("play count")
  {
    var key: Bytes := "play count";
    assert key[4] == ' ' && !IsIdentByte(key[4]);
  }

  /** The edges of the rule: the empty key names the bare `@`; a leading
      digit, and a leading `@` that would make `@@`, are rejected. */
  lemma IvarKeyEdges()
    ensures IsIvarKey("") && IvarName(Str("")) == "@"
    ensures !IsIvarKey("1st") && !IsIvarKey("@count")
  {
    var digit: Bytes, at: Bytes := "1st", "@count";
    assert IsDigit(digit[0]);
    assert !IsIdentByte(at[0]);
  }

  /** A symbol and a string with the same text name the same variable; the
      later pair wins. */
  lemma SameTextSameVariable(m: map<Bytes, Value>, v: Value, w: Value)
    ensures "@name" in Overlay(m, [(Sym("name"), v), (Str("name"), w)])
    ensures Overlay(m, [(Sym("name"), v), (Str("name"), w)])["@name"] == w
  {
    var data := [(Sym("name"), v), (Str("name"), w)];
    OverlayLast(m, data, 1);
    assert IvarName(data[1].0) == "@name";
  }
}

=== FILE: escape.dfy ===
/** `Base.sanitize`: percent-encoding with the unreserved set of section 2.3 of
    RFC 2396 and the `%XX` escape of its section 2.4.1, applied byte by byte. */
module Escape {
  import opened RubyString
  import opened Wrappers

  /** The "mark" characters of section 2.3 of RFC 2396. */
  predicate IsMark(b: Byte) {
    b == '-' || b == '_' || b == '.' || b == '!' || b == '~' ||
    b == '*' || b == '\'' || b == '(' || b == ')'
  }

  /** Bytes that `sanitize` leaves alone: letters, digits and the marks. */
  predicate IsUnreserved(b: Byte) { IsAlnum(b) || IsMark(b) }

  predicate IsUpperHex(b: Byte) { IsDigit(b) || 'A' <= b <= 'F' }

  /** Hex digits `unescape` accepts: either case. */
  predicate IsHex(b: Byte) { IsUpperHex(b) || 'a' <= b <= 'f' }

  /** The digit `%02X` prints for a nibble. */
  function HexDigit(n: nat): (d: Byte)
    requires n < 16
    ensures IsUpperHex(d) && IsUnreserved(d)
  {
    if n < 10 then ('0' as int + n) as char else ('A' as int + n - 10) as char
  }

  function HexValue(b: Byte): (n: nat)
    requires IsHex(b)
    ensures n < 16
    ensures IsUpperHex(b) ==> HexDigit(n) == b
  {
    if IsDigit(b) then b as int - '0' as int
    else if 'A' <= b <= 'F' then b as int - 'A' as int + 10
    else b as int - 'a' as int + 10
  }

  /** The byte whose `%XX` escape has digits `hi` and `lo`. */
  function Unhex(hi: Byte, lo: Byte): (b: Byte)
    requires IsHex(hi) && IsHex(lo)
  {
    (HexValue(hi) * 16 + HexValue(lo)) as char
  }

  /** One byte as `sanitize` writes it. */
  function EscapeByte(b: Byte): (r: Bytes)
    ensures IsUnreserved(b) ==> r == [b]
    ensures !IsUnreserved(b) ==>
      |r| == 3 && r[0] == '%' && IsUpperHex(r[1]) && IsUpperHex(r[2]) && Unhex(r[1], r[2]) == b
  {
    if IsUnreserved(b) then [b]
    else ['%', HexDigit(b as int / 16), HexDigit(b as int % 16)]
  }

  /** The strings `sanitize` can produce: unreserved bytes, and `%` followed by
      two upper-case hex digits naming a byte that is not unreserved. */
  predicate IsCanonical(t: Bytes)
    decreases |t|
  {
    if t == [] then true
    else if t[0] == '%' then
      |t| >= 3 && IsUpperHex(t[1]) && IsUpperHex(t[2]) &&
      !IsUnreserved(Unhex(t[1], t[2])) && IsCanonical(t[3..])
    else IsUnreserved(t[0]) && IsCanonical(t[1..])
  }

  /** `Base.sanitize` on the bytes of `param.to_s`. */
  function Sanitize(s: Bytes): (r: Bytes)
    ensures IsCanonical(r)
    ensures forall i | 0 <= i < |r| :: r[i] == '%' || IsUnreserved(r[i])
    ensures |s| <= |r| <= 3 * |s|
  {
    if s == [] then []
    else
      var head, tail := EscapeByte(s[0]), Sanitize(s[1..]);
      assert (head + tail)[|head|..] == tail;
      head + tail
  }

  /** A strict inverse of `Sanitize`: `None` for a byte `sanitize` would have
      escaped or a malformed escape. On the outputs of `sanitize` it agrees
      with `URI.unescape`, which itself passes such bytes through. */
  function Unescape(t: Bytes): Option<Bytes>
    decreases |t|
  {
    if t == [] then Some([])
    else if t[0] == '%' then
      if |t| >= 3 && IsHex(t[1]) && IsHex(t[2]) then
        match Unescape(t[3..])
        case Some(rest) => Some([Unhex(t[1], t[2])] + rest)
        case None => None
      else None
    else if IsUnreserved(t[0]) then
      match Unescape(t[1..])
      case Some(rest) => Some([t[0]] + rest)
      case None => None
    else None
  }

  /** Unescaping the output of `sanitize` gives back its input. */
  lemma {:induction false} UnescapeSanitize(s: Bytes)
    ensures Unescape(Sanitize(s)) == Some(s)
  {
    if s != [] {
      UnescapeSanitize(s[1..]);
      var head, tail := EscapeByte(s[0]), Sanitize(s[1..]);
      var t := head + tail;
      if IsUnreserved(s[0]) {
        assert t[1..] == tail;
      } else {
        assert t[3..] == tail;
      }
      assert s == [s[0]] + s[1..];
    }
  }

  /** Every canonical string is the output of `sanitize` on what it unescapes
      to, so `sanitize` is a bijection onto the canonical strings. */
  lemma {:induction false} SanitizeUnescape(t: Bytes)
    requires IsCanonical(t)
    ensures Unescape(t).Some? && Sanitize(Unescape(t).value) == t
  {
    if t != [] {
      if t[0] == '%' {
        SanitizeUnescape(t[3..]);
        var b := Unhex(t[1], t[2]);
        assert EscapeByte(b) == t[..3];
        assert t == t[..3] + t[3..];
      } else {
        SanitizeUnescape(t[1..]);
        assert t == [t[0]] + t[1..];
      }
    }
  }

  /** Different inputs give different outputs. */
  lemma SanitizeInjective(s: Bytes, s': Bytes)
    requires Sanitize(s) == Sanitize(s')
    ensures s == s'
  {
    UnescapeSanitize(s);
    UnescapeSanitize(s');
  }

  /** The separators of a query string never appear in `sanitize`'s output. */
  lemma SanitizeHasNoSeparators(s: Bytes)
    ensures !Contains(Sanitize(s), '&') && !Contains(Sanitize(s), '=')
  {
  }
}

=== FILE: query.dfy ===
/** The request path `Base.request` sends: `/2.0/?` and the `key=value`
    fragments joined with `&`, each side passed through `sanitize`. */
module Query {
  import opened RubyString
  import opened Wrappers
  import opened RubyHash
  import opened Escape

  const PathPrefix: Bytes := "/2.0/?"

  /** `"#{sanitize(key)}=#{sanitize(value)}"`. */
  function Fragment(x: Pair): Bytes {
    Sanitize(x.0.ToS()) + "=" + Sanitize(x.1.ToS())
  }

  /** The fragment of every pair, in order. */
  function Fragments(p: Params): (r: seq<Bytes>)
    ensures |r| == |p|
  {
    if p == [] then [] else [Fragment(p[0])] + Fragments(p[1..])
  }

  lemma {:induction false} FragmentsAt(p: Params, i: nat)
    requires i < |p|
    ensures Fragments(p)[i] == Fragment(p[i])
  {
    if i > 0 {
      FragmentsAt(p[1..], i - 1);
    }
  }

  lemma FragmentsPrefix(p: Params, i: nat)
    requires i < |p|
    ensures Fragments(p[..i + 1]) == Fragments(p[..i]) + [Fragment(p[i])]
  {
    var a, b := Fragments(p[..i + 1]), Fragments(p[..i]) + [Fragment(p[i])];
    forall j | 0 <= j < |a| ensures a[j] == b[j] {
      FragmentsAt(p[..i + 1], j);
      if j < i { FragmentsAt(p[..i], j); }
    }
  }

  /** `'/2.0/?' + paramlist.join('&')`. */
  function Path(fragments: seq<Bytes>): Bytes {
    PathPrefix + Join(fragments, '&')
  }

  /** The key and value texts of every pair, in order. */
  function Texts(p: Params): (r: seq<(Bytes, Bytes)>)
    ensures |r| == |p|
  {
    if p == [] then [] else [(p[0].0.ToS(), p[0].1.ToS())] + Texts(p[1..])
  }

  /** A fragment read back: cut at its first `=`, both sides unescaped. */
  function ParseFragment(f: Bytes): Option<(Bytes, Bytes)> {
    match CutAt(f, '=')
    case None => None
    case Some(cut) =>
      match (Unescape(cut.0), Unescape(cut.1))
      case (Some(k), Some(v)) => Some((k, v))
      case _ => None
  }

  function ParseFragments(fs: seq<Bytes>): Option<seq<(Bytes, Bytes)>> {
    if fs == [] then Some([])
    else
      match (ParseFragment(fs[0]), ParseFragments(fs[1..]))
      case (Some(kv), Some(rest)) => Some([kv] + rest)
      case _ => None
  }

  /** A request path read back into its key and value texts. */
  function ParseQuery(path: Bytes): Option<seq<(Bytes, Bytes)>> {
    if |path| < |PathPrefix| || path[..|PathPrefix|] != PathPrefix then None
    else ParseFragments(SplitAll(path[|PathPrefix|..], '&'))
  }

  lemma FragmentHasNoAmpersand(x: Pair)
    ensures !Contains(Fragment(x), '&')
  {
    SanitizeHasNoSeparators(x.0.ToS());
    SanitizeHasNoSeparators(x.1.ToS());
    ContainsConcat(Sanitize(x.0.ToS()), "=", '&');
    ContainsConcat(Sanitize(x.0.ToS()) + "=", Sanitize(x.1.ToS()), '&');
  }

  lemma ParseFragmentOf(x: Pair)
    ensures ParseFragment(Fragment(x)) == Some((x.0.ToS(), x.1.ToS()))
  {
    var k, v := Sanitize(x.0.ToS()), Sanitize(x.1.ToS());
    SanitizeHasNoSeparators(x.0.ToS());
    CutAtFirst(k, '=', v);
    assert Fragment(x) == k + ['='] + v;
    UnescapeSanitize(x.0.ToS());
    UnescapeSanitize(x.1.ToS());
  }

  lemma {:induction false} ParseFragmentsOf(p: Params)
    ensures ParseFragments(Fragments(p)) == Some(Texts(p))
  {
    if p != [] {
      ParseFragmentsOf(p[1..]);
      ParseFragmentOf(p[0]);
      assert Fragments(p)[1..] == Fragments(p[1..]);
    }
  }

  /** Splitting a request path on `&`, cutting each fragment at its first `=`
      and unescaping both sides gives back the key and value texts of the
      pairs, in order: one fragment per pair, and no fragment runs into the
      next. */
  lemma QueryRoundTrip(p: Params)
    requires |p| >= 1
    ensures ParseQuery(Path(Fragments(p))) == Some(Texts(p))
  {
    var fs := Fragments(p);
    var path := Path(fs);
    assert path[..|PathPrefix|] == PathPrefix;
    assert path[|PathPrefix|..] == Join(fs, '&');
    forall i | 0 <= i < |fs| ensures !Contains(fs[i], '&') {
      FragmentsAt(p, i);
      FragmentHasNoAmpersand(p[i]);
    }
    SplitAllJoin(fs, '&');
    ParseFragmentsOf(p);
  }
}

=== FILE: request.dfy ===
/** `Base.request` (lib/scrobbler/base.rb): the parameter hash completed with
    the API key and the method name, signed when the caller asks for it, and
    written out as the request path. Sending the path and parsing the reply
    are the transport's business and are not part of this module. */
module Request {
  import opened RubyString
  import opened Wrappers
  import opened RubyHash
  import opened Escape
  import opened Signer
  import opened Query

  const SignedKey: Key := Sym("signed")
  const ApiKeyKey: Key := Str("api_key")
  const MethodKey: Key := Str("method")
  const ApiSigKey: Key := Sym("api_sig")

  /** The class variables `@@api_key` and `@@secret`; `None` while never set. */
  datatype Credentials = Credentials(apiKey: Option<Bytes>, secret: Option<Bytes>)

  /** Reading a class variable that was never set raises `NameError`. */
  datatype RequestError = ApiKeyNotSet | SecretNotSet

  /** The parameter hash after `{:signed => false}.merge(parameters)` and the
      two stores under `'api_key'` and `'method'`. */
  function Prepared(apiKey: Bytes, apiMethod: Bytes, parameters: Params): Params {
    var merged := Merge([(SignedKey, Bool(false))], parameters);
    Store(Store(merged, ApiKeyKey, Text(apiKey)), MethodKey, Text(apiMethod))
  }

  /** Did the caller ask for a signed call (a truthy value under `:signed`)? */
  predicate CallerSigned(parameters: Params) {
    HasKey(parameters, SignedKey) && Lookup(parameters, SignedKey).value.Truthy()
  }

  /** The digest's input for the sorted pairs, and the pairs with `api_sig` last. */
  function SignedPairs(sorted: Params, secret: Bytes, digest: Bytes -> Bytes): Params {
    sorted + [(ApiSigKey, Text(digest(SignatureInput(sorted, secret))))]
  }

  /** The pairs the query string carries, in the order it carries them. */
  function QueryPairs(cred: Credentials, digest: Bytes -> Bytes, apiMethod: Bytes,
                      parameters: Params): Result<Params, RequestError>
  {
    if cred.apiKey.None? then Failure(ApiKeyNotSet)
    else
      var (flag, rest) := Delete(Prepared(cred.apiKey.value, apiMethod, parameters), SignedKey);
      if !flag.Truthy() then Success(rest)
      else if cred.secret.None? then Failure(SecretNotSet)
      else Success(SignedPairs(SortByKey(rest), cred.secret.value, digest))
  }

  /** The request path, or the error raised on the way to it. */
  function RequestPath(cred: Credentials, digest: Bytes -> Bytes, apiMethod: Bytes,
                       parameters: Params): Result<Bytes, RequestError>
  {
    match QueryPairs(cred, digest, apiMethod, parameters)
    case Success(w) => Success(Path(Fragments(w)))
    case Failure(e) => Failure(e)
  }

  /** `Base.request` up to the transport call: builds `paramlist` pair by pair
      on the signed or the unsigned path and returns the path it would send.
      `digest` stands for `Digest::MD5.hexdigest`. */
  method Request(cred: Credentials, digest: Bytes -> Bytes, apiMethod: Bytes, parameters: Params)
    returns (r: Result<Bytes, RequestError>)
    requires UniqueKeys(parameters)
    ensures r == RequestPath(cred, digest, apiMethod, parameters)
    ensures r == Failure(ApiKeyNotSet) <==> cred.apiKey.None?
    ensures r == Failure(SecretNotSet) <==>
            cred.apiKey.Some? && CallerSigned(parameters) && cred.secret.None?
    ensures r.Success? ==>
            ParseQuery(r.value) == Some(Texts(QueryPairs(cred, digest, apiMethod, parameters).value))
  {
    var params := Merge([(SignedKey, Bool(false))], parameters);
    if cred.apiKey.None? {
      return Failure(ApiKeyNotSet);
    }
    params := Store(params, ApiKeyKey, Text(cred.apiKey.value));
    params := Store(params, MethodKey, Text(apiMethod));
    var paramlist: seq<Bytes> := [];
    var signed: Value;
    signed, params := Delete(params, SignedKey).0, Delete(params, SignedKey).1;
    ghost var wire: Params;
    if signed.Truthy() {
      if cred.secret.None? {
        FlagIsCallers(cred.apiKey.value, apiMethod, parameters);
        return Failure(SecretNotSet);
      }
      var sorted := SortByKey(params);
      var str := Joined(sorted);
      str := str + cred.secret.value;
      var md5 := digest(str);
      sorted := sorted + [(ApiSigKey, Text(md5))];
      var i := 0;
      while i < |sorted|
        invariant 0 <= i <= |sorted|
        invariant paramlist == Fragments(sorted[..i])
      {
        FragmentsPrefix(sorted, i);
        paramlist := paramlist + [Fragment(sorted[i])];
        i := i + 1;
      }
      assert sorted[..i] == sorted;
      wire := sorted;
    } else {
      var i := 0;
      while i < |params|
        invariant 0 <= i <= |params|
        invariant paramlist == Fragments(params[..i])
      {
        FragmentsPrefix(params, i);
        paramlist := paramlist + [Fragment(params[i])];
        i := i + 1;
      }
      assert params[..i] == params;
      wire := params;
    }
    r := Success(PathPrefix + Join(paramlist, '&'));
    FlagIsCallers(cred.apiKey.value, apiMethod, parameters);
    assert QueryPairs(cred, digest, apiMethod, parameters) == Success(wire);
    PairsCarryKey(cred, digest, apiMethod, parameters);
    QueryRoundTrip(wire);
  }

  /** The hash before `delete :signed` holds the caller's pairs with the key
      and method stored; after it, the `:signed` flag is gone and the caller's
      other pairs keep their order. */
  lemma PreparedShape(apiKey: Bytes, apiMethod: Bytes, parameters: Params)
    requires UniqueKeys(parameters)
    ensures Remove(Prepared(apiKey, apiMethod, parameters), SignedKey) ==
            Store(Store(Remove(parameters, SignedKey), ApiKeyKey, Text(apiKey)), MethodKey, Text(apiMethod))
    ensures UniqueKeys(Prepared(apiKey, apiMethod, parameters))
  {
    var flag := if HasKey(parameters, SignedKey) then Lookup(parameters, SignedKey).value else Bool(false);
    var others := Remove(parameters, SignedKey);
    MergeIntoSingleton(SignedKey, Bool(false), parameters);
    var merged := [(SignedKey, flag)] + others;
    assert merged[1..] == others;
    RemoveUnique(parameters, SignedKey);
    RemoveLookup(parameters, SignedKey, SignedKey);
    var h1 := Store(merged, ApiKeyKey, Text(apiKey));
    RemoveStore(h1, MethodKey, Text(apiMethod), SignedKey);
    RemoveStore(merged, ApiKeyKey, Text(apiKey), SignedKey);
    RemoveAbsent(others, SignedKey);
    StoreUnique(merged, ApiKeyKey, Text(apiKey));
    StoreUnique(h1, MethodKey, Text(apiMethod));
  }

  /** `delete :signed` returns what the caller put under `:signed`, or the
      `false` that `merge` started from. */
  lemma FlagIsCallers(apiKey: Bytes, apiMethod: Bytes, parameters: Params)
    requires UniqueKeys(parameters)
    ensures Delete(Prepared(apiKey, apiMethod, parameters), SignedKey).0.Truthy() <==>
            CallerSigned(parameters)
  {
    var merged := Merge([(SignedKey, Bool(false))], parameters);
    MergeLookup([(SignedKey, Bool(false))], parameters, SignedKey);
    StoreLookup(merged, ApiKeyKey, Text(apiKey), SignedKey);
    StoreLookup(Store(merged, ApiKeyKey, Text(apiKey)), MethodKey, Text(apiMethod), SignedKey);
  }

  /** The request fails exactly when the API key was never set, or when a
      signed call finds the secret never set. */
  lemma QueryPairsFails(cred: Credentials, digest: Bytes -> Bytes, apiMethod: Bytes, parameters: Params)
    requires UniqueKeys(parameters)
    ensures QueryPairs(cred, digest, apiMethod, parameters) == Failure(ApiKeyNotSet) <==> cred.apiKey.None?
    ensures QueryPairs(cred, digest, apiMethod, parameters) == Failure(SecretNotSet) <==>
            cred.apiKey.Some? && CallerSigned(parameters) && cred.secret.None?
  {
    if cred.apiKey.Some? {
      FlagIsCallers(cred.apiKey.value, apiMethod, parameters);
    }
  }

  /** The pairs that leave the hash, whichever path: unique keys, the key and
      method under their names, no `:signed`. */
  lemma RemainingFacts(apiKey: Bytes, apiMethod: Bytes, parameters: Params)
    requires UniqueKeys(parameters)
    ensures var rest := Remove(Prepared(apiKey, apiMethod, parameters), SignedKey);
      && UniqueKeys(rest)
      && Lookup(rest, ApiKeyKey) == Some(Text(apiKey))
      && Lookup(rest, MethodKey) == Some(Text(apiMethod))
      && !HasKey(rest, SignedKey)
  {
    var prepared := Prepared(apiKey, apiMethod, parameters);
    PreparedShape(apiKey, apiMethod, parameters);
    RemoveUnique(prepared, SignedKey);
    RemoveLookup(prepared, SignedKey, ApiKeyKey);
    RemoveLookup(prepared, SignedKey, MethodKey);
    RemoveLookup(prepared, SignedKey, SignedKey);
    var merged := Merge([(SignedKey, Bool(false))], parameters);
    StoreLookup(merged, ApiKeyKey, Text(apiKey), ApiKeyKey);
    StoreLookup(Store(merged, ApiKeyKey, Text(apiKey)), MethodKey, Text(apiMethod), ApiKeyKey);
    StoreLookup(Store(merged, ApiKeyKey, Text(apiKey)), MethodKey, Text(apiMethod), MethodKey);
  }

  /** What leaves the hash: the remaining pairs as they stand, or sorted with
      `api_sig` appended. */
  lemma WireShape(cred: Credentials, digest: Bytes -> Bytes, apiMethod: Bytes, parameters: Params)
    requires UniqueKeys(parameters)
    requires QueryPairs(cred, digest, apiMethod, parameters).Success?
    ensures var rest := Remove(Prepared(cred.apiKey.value, apiMethod, parameters), SignedKey);
      var w := QueryPairs(cred, digest, apiMethod, parameters).value;
      && (!CallerSigned(parameters) ==> w == rest)
      && (CallerSigned(parameters) ==>
            cred.secret.Some? && w == SignedPairs(SortByKey(rest), cred.secret.value, digest))
  {
    FlagIsCallers(cred.apiKey.value, apiMethod, parameters);
  }

  /** The pairs that leave the hash are the remaining ones, plus `api_sig` on
      the signed path. */
  lemma WireMultiset(cred: Credentials, digest: Bytes -> Bytes, apiMethod: Bytes, parameters: Params)
    requires UniqueKeys(parameters)
    requires QueryPairs(cred, digest, apiMethod, parameters).Success?
    ensures var rest := Remove(Prepared(cred.apiKey.value, apiMethod, parameters), SignedKey);
      var w := QueryPairs(cred, digest, apiMethod, parameters).value;
      && (!CallerSigned(parameters) ==> w == rest)
      && (CallerSigned(parameters) ==>
            |w| == |rest| + 1 && w[|rest|].0 == ApiSigKey &&
            multiset(w) == multiset(rest) + multiset{w[|rest|]})
  {
    WireShape(cred, digest, apiMethod, parameters);
    var rest := Remove(Prepared(cred.apiKey.value, apiMethod, parameters), SignedKey);
    if CallerSigned(parameters) {
      var sorted := SortByKey(rest);
      var w := SignedPairs(sorted, cred.secret.value, digest);
      assert |sorted| == |multiset(sorted)| == |rest|;
      assert w == sorted + [w[|rest|]];
    }
  }

  /** Every request carries one `api_key` pair, holding the configured key,
      and one `method` pair, holding the method name, whatever the caller
      put under the string keys `'api_key'` and `'method'`; and the `:signed`
      flag never reaches the query. */
  lemma PairsCarryKey(cred: Credentials, digest: Bytes -> Bytes, apiMethod: Bytes, parameters: Params)
    requires UniqueKeys(parameters)
    requires QueryPairs(cred, digest, apiMethod, parameters).Success?
    ensures var w := QueryPairs(cred, digest, apiMethod, parameters).value;
      && multiset(w)[(ApiKeyKey, Text(cred.apiKey.value))] == 1
      && (forall x | x in w && x.0 == ApiKeyKey :: x.1 == Text(cred.apiKey.value))
      && multiset(w)[(MethodKey, Text(apiMethod))] == 1
      && (forall x | x in w && x.0 == MethodKey :: x.1 == Text(apiMethod))
      && (forall x | x in w :: x.0 != SignedKey)
      && |w| >= 2
  {
    var key := cred.apiKey.value;
    var rest := Remove(Prepared(key, apiMethod, parameters), SignedKey);
    RemainingFacts(key, apiMethod, parameters);
    WireMultiset(cred, digest, apiMethod, parameters);
    var w := QueryPairs(cred, digest, apiMethod, parameters).value;
    var signed := CallerSigned(parameters);
    OnlyPairUnder(rest, w, signed, ApiKeyKey, Text(key));
    OnlyPairUnder(rest, w, signed, MethodKey, Text(apiMethod));
    NoPairUnder(rest, w, signed, SignedKey);
    assert |multiset(rest)| >= 2 by {
      assert multiset{(ApiKeyKey, Text(key)), (MethodKey, Text(apiMethod))} <= multiset(rest);
    }
    assert |w| >= |rest| == |multiset(rest)|;
  }

  /** `w` is `rest`, or `rest` rearranged with an `api_sig` pair added. */
  predicate Carries(rest: Params, w: Params, signed: bool) {
    if signed then |w| == |rest| + 1 && w[|rest|].0 == ApiSigKey &&
                   multiset(w) == multiset(rest) + multiset{w[|rest|]}
    else w == rest
  }

  lemma OnlyPairUnder(rest: Params, w: Params, signed: bool, k: Key, v: Value)
    requires Carries(rest, w, signed) && UniqueKeys(rest)
    requires Lookup(rest, k) == Some(v) && k != ApiSigKey
    ensures multiset(w)[(k, v)] == 1
    ensures forall x | x in w && x.0 == k :: x.1 == v
  {
    UniquePair(rest, k, v);
    forall x | x in w && x.0 == k ensures x.1 == v {
      assert x in multiset(w);
    }
  }

  lemma NoPairUnder(rest: Params, w: Params, signed: bool, k: Key)
    requires Carries(rest, w, signed) && !HasKey(rest, k) && k != ApiSigKey
    ensures forall x | x in w :: x.0 != k
  {
    LookupAbsent(rest, k);
    forall x | x in w ensures x.0 != k {
      assert x in multiset(w);
    }
  }

  /** The signed path: the remaining pairs sorted by key text, then `api_sig`
      holding the digest of their signature input, which `api_sig` is not
      part of; one pair more than the hash holds. */
  lemma SignedLayout(cred: Credentials, digest: Bytes -> Bytes, apiMethod: Bytes, parameters: Params)
    requires UniqueKeys(parameters)
    requires cred.apiKey.Some? && cred.secret.Some? && CallerSigned(parameters)
    ensures var rest := Remove(Prepared(cred.apiKey.value, apiMethod, parameters), SignedKey);
      var w := QueryPairs(cred, digest, apiMethod, parameters);
      var body := SortByKey(rest);
      && w.Success?
      && |w.value| == |rest| + 1
      && w.value[..|rest|] == body
      && Sorted(body) && multiset(body) == multiset(rest)
      && w.value[|rest|] == (ApiSigKey, Text(digest(Joined(body) + cred.secret.value)))
  {
    FlagIsCallers(cred.apiKey.value, apiMethod, parameters);
    WireShape(cred, digest, apiMethod, parameters);
    var rest := Remove(Prepared(cred.apiKey.value, apiMethod, parameters), SignedKey);
    var body := SortByKey(rest);
    assert |body| == |multiset(body)| == |rest|;
    assert (body + [(ApiSigKey, Text(digest(Joined(body) + cred.secret.value)))])[..|rest|] == body;
  }

  /** The unsigned path: the caller's pairs in the hash's own order, minus
      `:signed`, with `'api_key'` and `'method'` overwritten in place or added
      at the end; no `api_sig` unless the caller sent one. */
  lemma UnsignedLayout(cred: Credentials, digest: Bytes -> Bytes, apiMethod: Bytes, parameters: Params)
    requires UniqueKeys(parameters)
    requires cred.apiKey.Some? && !CallerSigned(parameters)
    ensures QueryPairs(cred, digest, apiMethod, parameters) ==
            Success(Store(Store(Remove(parameters, SignedKey), ApiKeyKey, Text(cred.apiKey.value)),
                          MethodKey, Text(apiMethod)))
    ensures !HasKey(parameters, ApiSigKey) ==>
            !HasKey(QueryPairs(cred, digest, apiMethod, parameters).value, ApiSigKey)
  {
    FlagIsCallers(cred.apiKey.value, apiMethod, parameters);
    PreparedShape(cred.apiKey.value, apiMethod, parameters);
    var others := Remove(parameters, SignedKey);
    RemoveLookup(parameters, SignedKey, ApiSigKey);
    StoreLookup(others, ApiKeyKey, Text(cred.apiKey.value), ApiSigKey);
    StoreLookup(Store(others, ApiKeyKey, Text(cred.apiKey.value)), MethodKey, Text(apiMethod), ApiSigKey);
  }

  /** Every caller pair under any other key reaches the query unchanged, on
      either path. A symbol `:api_key` or `:method` is such a key: only the
      string keys are overwritten. */
  lemma CallerPairsKept(cred: Credentials, digest: Bytes -> Bytes, apiMethod: Bytes,
                        parameters: Params, x: Pair)
    requires UniqueKeys(parameters)
    requires QueryPairs(cred, digest, apiMethod, parameters).Success?
    requires x in parameters && x.0 != SignedKey && x.0 != ApiKeyKey && x.0 != MethodKey
    ensures x in QueryPairs(cred, digest, apiMethod, parameters).value
  {
    CallerPairRemains(cred.apiKey.value, apiMethod, parameters, x);
    WireMultiset(cred, digest, apiMethod, parameters);
    var w := QueryPairs(cred, digest, apiMethod, parameters).value;
    assert x in multiset(w);
  }

  /** The pair is still in the hash after `delete :signed`. */
  lemma CallerPairRemains(key: Bytes, apiMethod: Bytes, parameters: Params, x: Pair)
    requires UniqueKeys(parameters)
    requires x in parameters && x.0 != SignedKey && x.0 != ApiKeyKey && x.0 != MethodKey
    ensures x in Remove(Prepared(key, apiMethod, parameters), SignedKey)
  {
    PreparedShape(key, apiMethod, parameters);
    var others := Remove(parameters, SignedKey);
    LookupIffPair(parameters, x.0, x.1);
    RemoveLookup(parameters, SignedKey, x.0);
    StoreLookup(others, ApiKeyKey, Text(key), x.0);
    StoreLookup(Store(others, ApiKeyKey, Text(key)), MethodKey, Text(apiMethod), x.0);
  }

  /** Two hashes that hold the same pairs, in whatever order, give the same
      signed request, provided no two remaining keys share their text. */
  lemma SignedRequestOrderFree(cred: Credentials, digest: Bytes -> Bytes, apiMethod: Bytes,
                               p: Params, q: Params)
    requires UniqueKeys(p) && UniqueKeys(q) && multiset(p) == multiset(q)
    requires cred.apiKey.Some? && CallerSigned(p)
    requires DistinctTexts(Remove(Prepared(cred.apiKey.value, apiMethod, p), SignedKey))
    ensures RequestPath(cred, digest, apiMethod, p) == RequestPath(cred, digest, apiMethod, q)
  {
    var key := cred.apiKey.value;
    SameHashSameLookup(p, q, SignedKey);
    FlagIsCallers(key, apiMethod, p);
    FlagIsCallers(key, apiMethod, q);
    PreparedShape(key, apiMethod, p);
    PreparedShape(key, apiMethod, q);
    var rp, rq := Remove(p, SignedKey), Remove(q, SignedKey);
    SameHashRemove(p, q, SignedKey);
    RemoveUnique(p, SignedKey);
    RemoveUnique(q, SignedKey);
    SameHashStore(rp, rq, ApiKeyKey, Text(key));
    StoreUnique(rp, ApiKeyKey, Text(key));
    StoreUnique(rq, ApiKeyKey, Text(key));
    SameHashStore(Store(rp, ApiKeyKey, Text(key)), Store(rq, ApiKeyKey, Text(key)), MethodKey, Text(apiMethod));
    SortOrderFree(Remove(Prepared(key, apiMethod, p), SignedKey), Remove(Prepared(key, apiMethod, q), SignedKey));
  }

  /** Two caller hashes that differ only in the value text under one key, a
      key the request does not overwrite or delete, give different signature
      inputs: the signature covers every value the caller passes. */
  lemma ValueChangesSignature(key: Bytes, apiMethod: Bytes, p: Params, q: Params, i: nat, secret: Bytes)
    requires UniqueKeys(p) && UniqueKeys(q) && OneApart(p, q, i)
    requires p[i].0 != SignedKey && p[i].0 != ApiKeyKey && p[i].0 != MethodKey
    requires p[i].1.ToS() != q[i].1.ToS()
    ensures SignatureInput(SortByKey(Remove(Prepared(key, apiMethod, p), SignedKey)), secret) !=
            SignatureInput(SortByKey(Remove(Prepared(key, apiMethod, q), SignedKey)), secret)
  {
    PreparedShape(key, apiMethod, p);
    PreparedShape(key, apiMethod, q);
    var m := RemoveApart(p, q, i, SignedKey);
    var rp, rq := Remove(p, SignedKey), Remove(q, SignedKey);
    StoreApart(rp, rq, m, ApiKeyKey, Text(key));
    var sp, sq := Store(rp, ApiKeyKey, Text(key)), Store(rq, ApiKeyKey, Text(key));
    StoreApart(sp, sq, m, MethodKey, Text(apiMethod));
    SortedInputSeparates(Store(sp, MethodKey, Text(apiMethod)), Store(sq, MethodKey, Text(apiMethod)), m, secret);
  }
}

=== FILE: response.dfy ===
/** `Base.get` (lib/scrobbler/base.rb): resolve the class that stands for an
    element name, send the request, and build one object for every element
    of that name sitting under a child of the document root with the parent
    name. Parsing the reply and building an object from an element belong to
    the XML library and to the entity classes; here they are parameters. */
module Response {
  import opened RubyString
  import opened Wrappers
  import opened RubyHash
  import opened Request
  import opened Constanize

  /** An element of the reply document: its name and its child nodes. */
  datatype Node = Node(name: Bytes, children: seq<Node>)

  datatype GetError =
    | UnknownClass(missing: ConstError)   // `constanize` raised `NameError`
    | NotSent(cause: RequestError)        // `request` raised before sending

  /** The nodes of `nodes` with the given name, in order. */
  function Named(nodes: seq<Node>, name: Bytes): (r: seq<Node>)
    ensures |r| <= |nodes|
  {
    if nodes == [] then []
    else (if nodes[0].name == name then [nodes[0]] else []) + Named(nodes[1..], name)
  }

  /** The `element` children of the `parent` nodes among `nodes`, parent by
      parent, each parent's in document order. */
  function Members(nodes: seq<Node>, parent: Bytes, element: Bytes): seq<Node> {
    if nodes == [] then []
    else
      (if nodes[0].name == parent then Named(nodes[0].children, element) else [])
      + Members(nodes[1..], parent, element)
  }

  /** One object per element, as `new_from_libxml` of the resolved constant builds it. */
  function BuildAll<E>(build: (seq<Bytes>, Node) -> E, constant: seq<Bytes>, nodes: seq<Node>): (r: seq<E>)
    ensures |r| == |nodes|
  {
    if nodes == [] then [] else [build(constant, nodes[0])] + BuildAll(build, constant, nodes[1..])
  }

  lemma {:induction false} NamedAppend(a: seq<Node>, b: seq<Node>, name: Bytes)
    ensures Named(a + b, name) == Named(a, name) + Named(b, name)
  {
    if a == [] {
      assert a + b == b;
    } else {
      var head: seq<Node> := if a[0].name == name then [a[0]] else [];
      assert (a + b)[0] == a[0] && (a + b)[1..] == a[1..] + b;
      NamedAppend(a[1..], b, name);
      assert Named(a + b, name) == head + Named(a[1..] + b, name);
      assert Named(a, name) == head + Named(a[1..], name);
    }
  }

  lemma {:induction false} MembersAppend(a: seq<Node>, b: seq<Node>, parent: Bytes, element: Bytes)
    ensures Members(a + b, parent, element) == Members(a, parent, element) + Members(b, parent, element)
  {
    if a == [] {
      assert a + b == b;
    } else {
      assert (a + b)[1..] == a[1..] + b;
      MembersAppend(a[1..], b, parent, element);
    }
  }

  lemma {:induction false} BuildAllAppend<E>(build: (seq<Bytes>, Node) -> E, constant: seq<Bytes>,
                                             a: seq<Node>, b: seq<Node>)
    ensures BuildAll(build, constant, a + b) == BuildAll(build, constant, a) + BuildAll(build, constant, b)
  {
    if a == [] {
      assert a + b == b;
    } else {
      assert (a + b)[1..] == a[1..] + b;
      BuildAllAppend(build, constant, a[1..], b);
    }
  }

  /** Object `i` is built from element `i`. */
  lemma {:induction false} BuildAllAt<E>(build: (seq<Bytes>, Node) -> E, constant: seq<Bytes>,
                                         nodes: seq<Node>, i: nat)
    requires i < |nodes|
    ensures BuildAll(build, constant, nodes)[i] == build(constant, nodes[i])
  {
    if i > 0 {
      BuildAllAt(build, constant, nodes[1..], i - 1);
    }
  }

  lemma NamedStep(nodes: seq<Node>, j: nat, name: Bytes)
    requires j < |nodes|
    ensures nodes[j].name == name ==> Named(nodes[..j + 1], name) == Named(nodes[..j], name) + [nodes[j]]
    ensures nodes[j].name != name ==> Named(nodes[..j + 1], name) == Named(nodes[..j], name)
  {
    assert nodes[..j + 1] == nodes[..j] + [nodes[j]];
    NamedAppend(nodes[..j], [nodes[j]], name);
    assert [nodes[j]][1..] == [];
    assert Named(nodes[..j], name) + [] == Named(nodes[..j], name);
  }

  lemma MembersStep(nodes: seq<Node>, i: nat, parent: Bytes, element: Bytes)
    requires i < |nodes|
    ensures nodes[i].name == parent ==>
            Members(nodes[..i + 1], parent, element) ==
            Members(nodes[..i], parent, element) + Named(nodes[i].children, element)
    ensures nodes[i].name != parent ==>
            Members(nodes[..i + 1], parent, element) == Members(nodes[..i], parent, element)
  {
    assert nodes[..i + 1] == nodes[..i] + [nodes[i]];
    MembersAppend(nodes[..i], [nodes[i]], parent, element);
    assert [nodes[i]][1..] == [];
    var named := Named(nodes[i].children, element);
    assert named + [] == named;
    assert Members(nodes[..i], parent, element) + [] == Members(nodes[..i], parent, element);
  }

  lemma BuildAllSnoc<E>(build: (seq<Bytes>, Node) -> E, constant: seq<Bytes>, a: seq<Node>, x: Node)
    ensures BuildAll(build, constant, a + [x]) == BuildAll(build, constant, a) + [build(constant, x)]
  {
    BuildAllAppend(build, constant, a, [x]);
    assert [x][1..] == [];
  }

  /** The two nested `each` loops of `Base.get`: every child of the root
      with the parent name, and in it every child with the element name,
      built into an object in document order. */
  method Collect<E>(root: Node, parent: Bytes, element: Bytes,
                    build: (seq<Bytes>, Node) -> E, constant: seq<Bytes>)
    returns (elements: seq<E>)
    ensures elements == BuildAll(build, constant, Members(root.children, parent, element))
  {
    elements := [];
    var i := 0;
    while i < |root.children|
      invariant 0 <= i <= |root.children|
      invariant elements == BuildAll(build, constant, Members(root.children[..i], parent, element))
    {
      var child := root.children[i];
      MembersStep(root.children, i, parent, element);
      if child.name == parent {
        var j := 0;
        ghost var before := elements;
        while j < |child.children|
          invariant 0 <= j <= |child.children|
          invariant elements == before + BuildAll(build, constant, Named(child.children[..j], element))
        {
          var child2 := child.children[j];
          NamedStep(child.children, j, element);
          if child2.name == element {
            var done := BuildAll(build, constant, Named(child.children[..j], element));
            BuildAllSnoc(build, constant, Named(child.children[..j], element), child2);
            assert before + done + [build(constant, child2)] == before + (done + [build(constant, child2)]);
            elements := elements + [build(constant, child2)];
          }
          j := j + 1;
        }
        assert child.children[..j] == child.children;
        BuildAllAppend(build, constant, Members(root.children[..i], parent, element),
                       Named(child.children, element));
      }
      i := i + 1;
    }
    assert root.children[..i] == root.children;
  }

  /** `Base.get`. `respond` stands for sending the path over the connection
      and parsing the reply into its root element; `build` for the class's
      `new_from_libxml`. The class is resolved before the request is made. */
  method Get<E>(registry: Registry, cred: Credentials, digest: Bytes -> Bytes,
                respond: Bytes -> Node, build: (seq<Bytes>, Node) -> E,
                apiMethod: Bytes, parent: Bytes, element: Bytes, parameters: Params)
    returns (r: Result<seq<E>, GetError>)
    requires UniqueKeys(parameters)
    ensures r.Failure? && r.error.UnknownClass? <==>
            !Resolves(registry, ConstantNames("scrobbler/" + element))
    ensures r.Failure? && r.error.UnknownClass? ==>
            FirstMissing(registry, ConstantNames("scrobbler/" + element), r.error.missing)
    ensures r.Failure? && r.error.NotSent? <==>
            Resolves(registry, ConstantNames("scrobbler/" + element)) &&
            RequestPath(cred, digest, apiMethod, parameters).Failure?
    ensures r.Failure? && r.error.NotSent? ==>
            Failure(r.error.cause) == RequestPath(cred, digest, apiMethod, parameters)
    ensures r.Success? ==>
            r.value == BuildAll(build, ConstantNames("scrobbler/" + element),
                                Members(respond(RequestPath(cred, digest, apiMethod, parameters).value).children,
                                        parent, element))
  {
    var found := Constanize.Constanize(registry, "scrobbler/" + element);
    if found.Failure? {
      return Failure(UnknownClass(found.error));
    }
    var sent := Request.Request(cred, digest, apiMethod, parameters);
    if sent.Failure? {
      return Failure(NotSent(sent.error));
    }
    var root := respond(sent.value);
    var elements := Collect(root, parent, element, build, found.value);
    r := Success(elements);
  }

  /** A node is among the members exactly when it has the element name and
      is a child of a node, among `nodes`, that has the parent name. */
  lemma {:induction false} MembersIff(nodes: seq<Node>, parent: Bytes, element: Bytes, x: Node)
    ensures x in Members(nodes, parent, element) <==>
            x.name == element && exists c | c in nodes :: c.name == parent && x in c.children
  {
    if nodes != [] {
      MembersIff(nodes[1..], parent, element, x);
      NamedIff(nodes[0].children, element, x);
      if x.name == element && exists c | c in nodes :: c.name == parent && x in c.children {
        var c :| c in nodes && c.name == parent && x in c.children;
        if c != nodes[0] {
          assert c in nodes[1..];
        }
      }
      if x in Members(nodes[1..], parent, element) {
        var c :| c in nodes[1..] && c.name == parent && x in c.children;
        assert c in nodes;
      }
    }
  }

  lemma {:induction false} NamedIff(nodes: seq<Node>, name: Bytes, x: Node)
    ensures x in Named(nodes, name) <==> x in nodes && x.name == name
  {
    if nodes != [] {
      NamedIff(nodes[1..], name, x);
      assert nodes == [nodes[0]] + nodes[1..];
    }
  }

  /** No child of the root has the parent name: `get` returns no objects. */
  lemma {:induction false} NoParentNoMembers(nodes: seq<Node>, parent: Bytes, element: Bytes)
    requires forall c | c in nodes :: c.name != parent
    ensures Members(nodes, parent, element) == []
  {
    if nodes != [] {
      assert forall c | c in nodes[1..] :: c in nodes;
      NoParentNoMembers(nodes[1..], parent, element);
    }
  }

  /** Elements deeper than the root's grandchildren, or under a child with
      another name, are not collected: only the children of the parent nodes
      are looked at. */
  lemma {:induction false} MembersCount(nodes: seq<Node>, parent: Bytes, element: Bytes)
    ensures |Members(nodes, parent, element)| <= CountUnder(nodes, parent)
  {
    if nodes != [] {
      MembersCount(nodes[1..], parent, element);
    }
  }

  /** The number of children of the nodes with the parent name. */
  function CountUnder(nodes: seq<Node>, parent: Bytes): nat {
    if nodes == [] then 0
    else (if nodes[0].name == parent then |nodes[0].children| else 0) + CountUnder(nodes[1..], parent)
  }

  /** `<lfm><tracks><track/><total/><track/></tracks></lfm>` asked for
      `tracks` and `track`: the two tracks, in document order. */
  lemma TracksExample(t1: Node, other: Node, t2: Node)
    requires t1.name == "track" && t2.name == "track" && other.name == "total"
    ensures Members(Node("lfm", [Node("tracks", [t1, other, t2])]).children, "tracks", "track") == [t1, t2]
  {
    var kids := [t1, other, t2];
    assert other.name[1] == 'o' && other.name != "track";
    assert kids[1..] == [other, t2] && kids[1..][1..] == [t2];
    assert Named([t2], "track") == [t2];
    assert Named([other, t2], "track") == [t2];
    assert Named(kids, "track") == [t1, t2];
  }
}

=== FILE: ruby_hash.dfy ===
/** The parameter `Hash` that `Base.request` receives and edits: an association
    list in iteration order, with Ruby's `merge`, `[]=` and `delete`. */
module RubyHash {
  import opened RubyString
  import opened Wrappers

  /** A hash key. A Symbol and a String with the same text are different keys,
      though both answer `to_s` with that text. */
  datatype Key = Sym(name: Bytes) | Str(chars: Bytes) {
    function ToS(): Bytes {
      match this
      case Sym(n) => n
      case Str(c) => c
    }
  }

  /** A parameter value. Values other than `nil`, `true` and `false` are held
      as the text their `to_s` gives. */
  datatype Value = Text(s: Bytes) | Bool(b: bool) | Nil {
    function ToS(): Bytes {
      match this
      case Text(s) => s
      case Bool(b) => if b then "true" else "false"
      case Nil => ""
    }

    /** Ruby truthiness: everything but `nil` and `false`. */
    predicate Truthy() {
      !(Nil? || this == Bool(false))
    }
  }

  type Pair = (Key, Value)

  /** A `Hash`, in the order `each` visits it. */
  type Params = seq<Pair>

  /** `h[k]`, with `None` for a missing key. */
  function Lookup(h: Params, k: Key): (r: Option<Value>)
    ensures r.Some? ==> (k, r.value) in h
  {
    if h == [] then None
    else if h[0].0 == k then Some(h[0].1)
    else Lookup(h[1..], k)
  }

  predicate HasKey(h: Params, k: Key) {
    Lookup(h, k).Some?
  }

  /** No key occurs twice, as in every `Hash`. */
  predicate UniqueKeys(h: Params) {
    h == [] || (!HasKey(h[1..], h[0].0) && UniqueKeys(h[1..]))
  }

  lemma {:induction false} LookupAbsent(h: Params, k: Key)
    requires !HasKey(h, k)
    ensures forall p | p in h :: p.0 != k
  {
    if h != [] {
      LookupAbsent(h[1..], k);
      assert forall p | p in h :: p == h[0] || p in h[1..];
    }
  }

  /** In a hash, a key stands with exactly one value. */
  lemma {:induction false} LookupIffPair(h: Params, k: Key, v: Value)
    requires UniqueKeys(h)
    ensures Lookup(h, k) == Some(v) <==> (k, v) in h
  {
    if h != [] {
      assert (k, v) in h ==> (k, v) == h[0] || (k, v) in h[1..];
      if h[0].0 == k {
        LookupAbsent(h[1..], k);
      } else {
        LookupIffPair(h[1..], k, v);
      }
    }
  }

  /** `h[k] = v`: a present key keeps its place and takes the new value, a new
      key goes last. */
  function Store(h: Params, k: Key, v: Value): (r: Params)
  {
    if h == [] then [(k, v)]
    else if h[0].0 == k then [(k, v)] + h[1..]
    else [h[0]] + Store(h[1..], k, v)
  }

  /** After `h[k] = v`, `k` gives `v` and every other key what it gave before. */
  lemma {:induction false} StoreLookup(h: Params, k: Key, v: Value, k': Key)
    ensures Lookup(Store(h, k, v), k') == if k' == k then Some(v) else Lookup(h, k')
  {
    if h != [] && h[0].0 != k {
      StoreLookup(h[1..], k, v, k');
    }
  }

  /** Where `[]=` puts the pair: in place of an existing key, else at the end. */
  lemma {:induction false} StorePlace(h: Params, k: Key, v: Value)
    ensures HasKey(h, k) ==>
      |Store(h, k, v)| == |h| && forall i | 0 <= i < |h| :: Store(h, k, v)[i].0 == h[i].0
    ensures !HasKey(h, k) ==> Store(h, k, v) == h + [(k, v)]
  {
    if h != [] && h[0].0 != k {
      StorePlace(h[1..], k, v);
      assert h == [h[0]] + h[1..];
      if HasKey(h, k) {
        forall i | 0 <= i < |h| ensures Store(h, k, v)[i].0 == h[i].0 {
          if i > 0 { assert Store(h, k, v)[i] == Store(h[1..], k, v)[i - 1]; }
        }
      }
    }
  }

  lemma {:induction false} StoreUnique(h: Params, k: Key, v: Value)
    requires UniqueKeys(h)
    ensures UniqueKeys(Store(h, k, v))
  {
    if h != [] && h[0].0 != k {
      StoreUnique(h[1..], k, v);
      StoreLookup(h[1..], k, v, h[0].0);
      assert Store(h, k, v)[1..] == Store(h[1..], k, v);
    } else if h != [] {
      assert Store(h, k, v)[1..] == h[1..];
    }
  }

  /** `h.delete(k)`: every other pair stays, in order. */
  function Remove(h: Params, k: Key): (r: Params)
  {
    if h == [] then []
    else if h[0].0 == k then Remove(h[1..], k)
    else [h[0]] + Remove(h[1..], k)
  }

  /** After `h.delete(k)`, `k` is gone and every other key gives what it gave before. */
  lemma {:induction false} RemoveLookup(h: Params, k: Key, k': Key)
    ensures Lookup(Remove(h, k), k') == if k' == k then None else Lookup(h, k')
  {
    if h != [] {
      RemoveLookup(h[1..], k, k');
    }
  }

  /** `h.delete(k)`: the value it returns (`nil` for a missing key) and the
      hash it leaves. */
  function Delete(h: Params, k: Key): (Value, Params) {
    (match Lookup(h, k) case Some(v) => v case None => Nil, Remove(h, k))
  }

  /** Deleting `k2` after storing under another key is storing after deleting. */
  lemma {:induction false} RemoveStore(h: Params, k: Key, v: Value, k2: Key)
    requires k != k2
    ensures Remove(Store(h, k, v), k2) == Store(Remove(h, k2), k, v)
  {
    if h != [] && h[0].0 != k {
      RemoveStore(h[1..], k, v, k2);
    }
  }

  /** In a hash, the pair under `k` occurs once and is the only one under `k`. */
  lemma {:induction false} UniquePair(h: Params, k: Key, v: Value)
    requires UniqueKeys(h) && Lookup(h, k) == Some(v)
    ensures multiset(h)[(k, v)] == 1
    ensures forall x | x in h && x.0 == k :: x == (k, v)
  {
    assert h == [h[0]] + h[1..];
    if h[0].0 == k {
      LookupAbsent(h[1..], k);
      assert (k, v) !in multiset(h[1..]);
    } else {
      UniquePair(h[1..], k, v);
    }
  }

  /** Hashes that hold the same pairs still do after `[]=`. */
  lemma SameHashStore(h1: Params, h2: Params, k: Key, v: Value)
    requires UniqueKeys(h1) && UniqueKeys(h2) && multiset(h1) == multiset(h2)
    ensures multiset(Store(h1, k, v)) == multiset(Store(h2, k, v))
  {
    StoreMultiset(h1, k, v);
    StoreMultiset(h2, k, v);
    SameHashRemove(h1, h2, k);
  }

  /** Hashes that hold the same pairs still do after `delete`. */
  lemma SameHashRemove(h1: Params, h2: Params, k: Key)
    requires multiset(h1) == multiset(h2)
    ensures multiset(Remove(h1, k)) == multiset(Remove(h2, k))
  {
    forall x ensures multiset(Remove(h1, k))[x] == multiset(Remove(h2, k))[x] {
      RemoveMultiset(h1, k, x);
      RemoveMultiset(h2, k, x);
    }
  }

  lemma {:induction false} RemoveMultiset(h: Params, k: Key, x: Pair)
    ensures multiset(Remove(h, k))[x] == if x.0 == k then 0 else multiset(h)[x]
  {
    if h != [] {
      RemoveMultiset(h[1..], k, x);
      assert h == [h[0]] + h[1..];
    }
  }

  lemma {:induction false} RemoveUnique(h: Params, k: Key)
    requires UniqueKeys(h)
    ensures UniqueKeys(Remove(h, k))
  {
    if h != [] {
      RemoveUnique(h[1..], k);
      if h[0].0 != k {
        RemoveLookup(h[1..], k, h[0].0);
        assert Remove(h, k)[1..] == Remove(h[1..], k);
      }
    }
  }

  lemma {:induction false} RemoveAbsent(h: Params, k: Key)
    requires !HasKey(h, k)
    ensures Remove(h, k) == h
  {
    if h != [] {
      RemoveAbsent(h[1..], k);
      assert h == [h[0]] + h[1..];
    }
  }

  /** `h.merge(h2)`: the pairs of `h2` stored one by one into `h`. */
  function Merge(h: Params, h2: Params): Params
    decreases |h2|
  {
    if h2 == [] then h
    else Merge(Store(h, h2[0].0, h2[0].1), h2[1..])
  }

  /** After `merge`, the argument's value wins for its keys, the receiver's
      value stands for the others. */
  lemma {:induction false} MergeLookup(h: Params, h2: Params, k: Key)
    requires UniqueKeys(h2)
    ensures Lookup(Merge(h, h2), k) == if HasKey(h2, k) then Lookup(h2, k) else Lookup(h, k)
    decreases |h2|
  {
    if h2 != [] {
      MergeLookup(Store(h, h2[0].0, h2[0].1), h2[1..], k);
      StoreLookup(h, h2[0].0, h2[0].1, k);
      if h2[0].0 == k {
        assert !HasKey(h2[1..], k);
      }
    }
  }

  /** Merging a hash into a one-entry hash puts that entry's key first, with
      the argument's value when the argument has the key, and then the other
      pairs of the argument in their order. */
  lemma MergeIntoSingleton(k: Key, w: Value, p: Params)
    requires UniqueKeys(p)
    ensures Merge([(k, w)], p) ==
            [(k, if HasKey(p, k) then Lookup(p, k).value else w)] + Remove(p, k)
  {
    MergeInto(k, w, [], p);
    assert [(k, w)] + [] == [(k, w)];
  }

  /** No key of `a` occurs in `p`. */
  predicate Disjoint(a: Params, p: Params) {
    forall x | x in a :: !HasKey(p, x.0)
  }

  lemma {:induction false} MergeInto(k: Key, w: Value, a: Params, p: Params)
    requires UniqueKeys(p) && !HasKey(a, k) && Disjoint(a, p)
    ensures Merge([(k, w)] + a, p) ==
            [(k, if HasKey(p, k) then Lookup(p, k).value else w)] + a + Remove(p, k)
    decreases |p|
  {
    if p != [] {
      if p[0].0 == k {
        MergeInto(k, p[0].1, a, p[1..]);
        MergeIntoFront(k, w, a, p);
      } else {
        AppendAbsent(a, p[0], k);
        DisjointStep(a, p);
        MergeInto(k, w, a + [p[0]], p[1..]);
        MergeIntoBack(k, w, a, p);
      }
    }
  }

  /** The step of `MergeInto` where the next pair overwrites the first entry. */
  lemma MergeIntoFront(k: Key, w: Value, a: Params, p: Params)
    requires p != [] && p[0].0 == k && UniqueKeys(p)
    requires Merge([(k, p[0].1)] + a, p[1..]) ==
             [(k, if HasKey(p[1..], k) then Lookup(p[1..], k).value else p[0].1)] + a + Remove(p[1..], k)
    ensures Merge([(k, w)] + a, p) ==
            [(k, if HasKey(p, k) then Lookup(p, k).value else w)] + a + Remove(p, k)
  {
    var rest := p[1..];
    assert Merge([(k, w)] + a, p) == Merge(Store([(k, w)] + a, k, p[0].1), rest);
    StoreFront(k, w, p[0].1, a);
    assert !HasKey(rest, k);
    RemoveAbsent(rest, k);
  }

  /** The step of `MergeInto` where the next pair goes to the end. */
  lemma MergeIntoBack(k: Key, w: Value, a: Params, p: Params)
    requires p != [] && p[0].0 != k && Disjoint(a, p)
    requires Merge([(k, w)] + (a + [p[0]]), p[1..]) ==
             [(k, if HasKey(p[1..], k) then Lookup(p[1..], k).value else w)] + (a + [p[0]]) + Remove(p[1..], k)
    ensures Merge([(k, w)] + a, p) ==
            [(k, if HasKey(p, k) then Lookup(p, k).value else w)] + a + Remove(p, k)
  {
    var x, rest := p[0], p[1..];
    assert Merge([(k, w)] + a, p) == Merge(Store([(k, w)] + a, x.0, x.1), rest);
    StoreBack(k, w, a, x, p);
    assert Remove(p, k) == [x] + Remove(rest, k);
    assert [(k, w)] + (a + [x]) + Remove(rest, k) == [(k, w)] + a + ([x] + Remove(rest, k));
  }

  lemma StoreFront(k: Key, w: Value, v: Value, a: Params)
    ensures Store([(k, w)] + a, k, v) == [(k, v)] + a
  {
    assert ([(k, w)] + a)[1..] == a;
  }

  lemma StoreBack(k: Key, w: Value, a: Params, x: Pair, p: Params)
    requires p != [] && x == p[0] && x.0 != k && Disjoint(a, p)
    ensures Store([(k, w)] + a, x.0, x.1) == [(k, w)] + (a + [x])
  {
    LookupAbsentPairs(a, x.0, p);
    StorePlace([(k, w)] + a, x.0, x.1);
  }

  lemma {:induction false} LookupAbsentPairs(a: Params, k: Key, p: Params)
    requires p != [] && k == p[0].0 && Disjoint(a, p)
    ensures !HasKey(a, k)
  {
    if a != [] {
      assert a[0] in a;
      assert Disjoint(a[1..], p) by {
        forall y | y in a[1..] ensures !HasKey(p, y.0) { assert y in a; }
      }
      LookupAbsentPairs(a[1..], k, p);
    }
  }

  lemma DisjointStep(a: Params, p: Params)
    requires p != [] && UniqueKeys(p) && Disjoint(a, p)
    ensures Disjoint(a + [p[0]], p[1..])
  {
    forall y | y in a + [p[0]] ensures !HasKey(p[1..], y.0) {
      if y in a {
        assert !HasKey(p, y.0);
      } else {
        assert y == p[0];
      }
    }
  }

  lemma {:induction false} AppendAbsent(a: Params, x: Pair, k: Key)
    requires !HasKey(a, k) && x.0 != k
    ensures !HasKey(a + [x], k)
  {
    if a != [] {
      AppendAbsent(a[1..], x, k);
      assert (a + [x])[1..] == a[1..] + [x];
    }
  }

  /** Two hashes holding the same pairs agree on every lookup. */
  lemma SameHashSameLookup(p: Params, q: Params, k: Key)
    requires UniqueKeys(p) && UniqueKeys(q) && multiset(p) == multiset(q)
    ensures Lookup(p, k) == Lookup(q, k)
  {
    if Lookup(p, k).Some? {
      var v := Lookup(p, k).value;
      assert (k, v) in multiset(q);
      LookupIffPair(q, k, v);
    } else if Lookup(q, k).Some? {
      var v := Lookup(q, k).value;
      assert (k, v) in multiset(p);
      LookupIffPair(p, k, v);
    }
  }

  /** `[]=` replaces at most the one pair under `k`. */
  lemma {:induction false} StoreMultiset(h: Params, k: Key, v: Value)
    requires UniqueKeys(h)
    ensures multiset(Store(h, k, v)) == multiset(Remove(h, k)) + multiset{(k, v)}
  {
    if h != [] {
      assert h == [h[0]] + h[1..];
      if h[0].0 == k {
        RemoveAbsent(h[1..], k);
      } else {
        StoreMultiset(h[1..], k, v);
      }
    }
  }
  /** `a` and `b` hold the same pairs in the same places, except at `m`, where
      they hold the same key and possibly different values. */
  predicate OneApart(a: Params, b: Params, m: nat) {
    |a| == |b| && m < |a| && a[m].0 == b[m].0 &&
    forall j | 0 <= j < |a| && j != m :: a[j] == b[j]
  }

  /** The same pair in front of two lists one value apart. */
  lemma ApartCons(x: Pair, s: Params, t: Params, m: nat)
    requires OneApart(s, t, m)
    ensures OneApart([x] + s, [x] + t, m + 1)
    ensures ([x] + s)[m + 1] == s[m] && ([x] + t)[m + 1] == t[m]
  {
  }

  /** Two pairs under one key in front of the same list. */
  lemma ApartHead(a: Pair, b: Pair, u: Params)
    requires a.0 == b.0
    ensures OneApart([a] + u, [b] + u, 0)
  {
  }

  /** Past a common first pair, two lists one value apart still are. */
  lemma ApartTail(s: Params, t: Params, m: nat)
    requires OneApart(s, t, m) && 0 < m
    ensures s[0] == t[0] && OneApart(s[1..], t[1..], m - 1)
  {
  }

  /** Deleting another key keeps two hashes one value apart, and the
      differing pair moves at most one place forward. */
  lemma {:induction false} RemoveApart(h: Params, g: Params, m: nat, k: Key) returns (m': nat)
    requires OneApart(h, g, m) && h[m].0 != k
    ensures OneApart(Remove(h, k), Remove(g, k), m')
    ensures Remove(h, k)[m'] == h[m] && Remove(g, k)[m'] == g[m]
    decreases m
  {
    assert h[0].0 == g[0].0;
    if m == 0 {
      assert h[1..] == g[1..];
      m' := 0;
    } else {
      assert h[0] == g[0];
      var m0 := RemoveApart(h[1..], g[1..], m - 1, k);
      m' := if h[0].0 == k then m0 else m0 + 1;
    }
  }

  /** Storing under another key keeps two hashes one value apart, with the
      differing pair where it was. */
  lemma {:induction false} StoreApart(h: Params, g: Params, m: nat, k: Key, v: Value)
    requires OneApart(h, g, m) && h[m].0 != k
    ensures OneApart(Store(h, k, v), Store(g, k, v), m)
    ensures Store(h, k, v)[m] == h[m] && Store(g, k, v)[m] == g[m]
    decreases m
  {
    assert h[0].0 == g[0].0;
    if m == 0 {
      assert h[1..] == g[1..];
      var u := Store(h[1..], k, v);
      assert Store(h, k, v) == [h[0]] + u && Store(g, k, v) == [g[0]] + u;
      ApartHead(h[0], g[0], u);
    } else {
      assert OneApart(h[1..], g[1..], m - 1);
      if h[0].0 == k {
        assert Store(h, k, v) == [(k, v)] + h[1..] && Store(g, k, v) == [(k, v)] + g[1..];
        ApartCons((k, v), h[1..], g[1..], m - 1);
      } else {
        assert h[0] == g[0];
        StoreApart(h[1..], g[1..], m - 1, k, v);
        assert Store(h, k, v) == [h[0]] + Store(h[1..], k, v) && Store(g, k, v) == [h[0]] + Store(g[1..], k, v);
        ApartCons(h[0], Store(h[1..], k, v), Store(g[1..], k, v), m - 1);
      }
    }
  }

}

=== FILE: ruby_string.dfy ===
/** Byte strings as Ruby 1.8 sees them: a `String` is a sequence of bytes,
    compared byte by byte, and upper-cased only in the ASCII range. */
module RubyString {
  import opened Wrappers

  /** One byte. A `char` below 256 so that ASCII literals can be written as strings. */
  type Byte = c: char | c as int < 256

  type Bytes = seq<Byte>

  const LF: Byte := '\n'

  predicate IsLower(b: Byte) { 'a' <= b <= 'z' }

  predicate IsUpper(b: Byte) { 'A' <= b <= 'Z' }

  predicate IsDigit(b: Byte) { '0' <= b <= '9' }

  predicate IsAlnum(b: Byte) { IsLower(b) || IsUpper(b) || IsDigit(b) }

  /** `String#upcase` on one byte: only `a`..`z` change. */
  function Upcase(b: Byte): (r: Byte)
    ensures !IsLower(r)
    ensures r != b <==> IsLower(b)
    ensures IsLower(b) ==> IsUpper(r) && r as int - 'A' as int == b as int - 'a' as int
  {
    if IsLower(b) then (b as int - 32) as char else b
  }

  /** `Array#join('')` on texts: the parts back to back. */
  function Concat(parts: seq<Bytes>): Bytes {
    if parts == [] then [] else parts[0] + Concat(parts[1..])
  }

  /** Joining two lists of parts is joining each and concatenating. */
  lemma {:induction false} ConcatAppend(x: seq<Bytes>, y: seq<Bytes>)
    ensures Concat(x + y) == Concat(x) + Concat(y)
  {
    if x == [] {
      assert x + y == y;
    } else {
      assert (x + y)[0] == x[0] && (x + y)[1..] == x[1..] + y;
      ConcatAppend(x[1..], y);
    }
  }

  /** Does `s` hold the byte `b`? */
  predicate Contains(s: Bytes, b: Byte) {
    exists i | 0 <= i < |s| :: s[i] == b
  }

  /** Ruby's `String#<=>` gives -1 or 0: bytes compared as unsigned numbers up to
      the shorter length, and then the shorter string first. */
  predicate LessEq(a: Bytes, b: Bytes) {
    if a == [] then true
    else if b == [] then false
    else if a[0] != b[0] then a[0] < b[0]
    else LessEq(a[1..], b[1..])
  }

  lemma {:induction false} LessEqTotal(a: Bytes, b: Bytes)
    ensures LessEq(a, b) || LessEq(b, a)
  {
    if a != [] && b != [] && a[0] == b[0] {
      LessEqTotal(a[1..], b[1..]);
    }
  }

  lemma {:induction false} LessEqAntisymmetric(a: Bytes, b: Bytes)
    requires LessEq(a, b) && LessEq(b, a)
    ensures a == b
  {
    if a != [] && b != [] {
      LessEqAntisymmetric(a[1..], b[1..]);
      assert a == [a[0]] + a[1..] && b == [b[0]] + b[1..];
    }
  }

  lemma {:induction false} LessEqTransitive(a: Bytes, b: Bytes, c: Bytes)
    requires LessEq(a, b) && LessEq(b, c)
    ensures LessEq(a, c)
  {
    if a != [] && b != [] && c != [] && a[0] == b[0] && b[0] == c[0] {
      LessEqTransitive(a[1..], b[1..], c[1..]);
    }
  }

  lemma ContainsConcat(a: Bytes, b: Bytes, c: Byte)
    ensures Contains(a + b, c) <==> Contains(a, c) || Contains(b, c)
  {
    if Contains(a + b, c) {
      var i :| 0 <= i < |a + b| && (a + b)[i] == c;
      if i >= |a| { assert b[i - |a|] == c; }
    }
    if Contains(a, c) {
      var i :| 0 <= i < |a| && a[i] == c;
      assert (a + b)[i] == c;
    }
    if Contains(b, c) {
      var i :| 0 <= i < |b| && b[i] == c;
      assert (a + b)[|a| + i] == c;
    }
  }

  /** `Array#join(sep)` for a one-byte separator. */
  function Join(parts: seq<Bytes>, sep: Byte): Bytes {
    if |parts| == 0 then []
    else if |parts| == 1 then parts[0]
    else parts[0] + [sep] + Join(parts[1..], sep)
  }

  /** Every piece of `s` between occurrences of `sep`, empty pieces included
      (unlike Ruby's `split`, which drops trailing empty pieces). */
  function SplitAll(s: Bytes, sep: Byte): (r: seq<Bytes>)
    ensures |r| >= 1
  {
    if s == [] then [[]]
    else
      var rest := SplitAll(s[1..], sep);
      if s[0] == sep then [[]] + rest
      else [[s[0]] + rest[0]] + rest[1..]
  }

  /** `s` cut at the first `sep`, or `None` when it has none. */
  function CutAt(s: Bytes, sep: Byte): Option<(Bytes, Bytes)> {
    if s == [] then None
    else if s[0] == sep then Some(([], s[1..]))
    else match CutAt(s[1..], sep)
      case Some(cut) => Some(([s[0]] + cut.0, cut.1))
      case None => None
  }

  lemma {:induction false} CutAtFirst(a: Bytes, sep: Byte, b: Bytes)
    requires !Contains(a, sep)
    ensures CutAt(a + [sep] + b, sep) == Some((a, b))
  {
    if a == [] {
      assert a + [sep] + b == [sep] + b;
    } else {
      assert !Contains(a[1..], sep);
      CutAtFirst(a[1..], sep, b);
      assert (a + [sep] + b)[1..] == a[1..] + [sep] + b;
      assert a[0] != sep;
      assert a == [a[0]] + a[1..];
    }
  }

  lemma {:induction false} SplitAllPrefix(a: Bytes, sep: Byte, rest: Bytes)
    requires !Contains(a, sep)
    ensures SplitAll(a + rest, sep) == [a + SplitAll(rest, sep)[0]] + SplitAll(rest, sep)[1..]
  {
    if a != [] {
      assert !Contains(a[1..], sep);
      SplitAllPrefix(a[1..], sep, rest);
      assert (a + rest)[1..] == a[1..] + rest;
      assert a[0] != sep;
      assert [a[0]] + (a[1..] + SplitAll(rest, sep)[0]) == a + SplitAll(rest, sep)[0];
    } else {
      assert a + rest == rest;
      var r := SplitAll(rest, sep);
      assert [] + r[0] == r[0];
      assert r == [r[0]] + r[1..];
    }
  }

  /** Splitting what `Join` built, when no part holds the separator, gives the
      parts back. */
  lemma {:induction false} SplitAllJoin(parts: seq<Bytes>, sep: Byte)
    requires |parts| >= 1
    requires forall i | 0 <= i < |parts| :: !Contains(parts[i], sep)
    ensures SplitAll(Join(parts, sep), sep) == parts
  {
    if |parts| == 1 {
      SplitAllPrefix(parts[0], sep, []);
      assert parts[0] + [] == parts[0];
      assert parts == [parts[0]];
    } else {
      assert !Contains(parts[0], sep);
      SplitAllJoin(parts[1..], sep);
      var tail := [sep] + Join(parts[1..], sep);
      assert parts[0] + [sep] + Join(parts[1..], sep) == parts[0] + tail;
      SplitAllPrefix(parts[0], sep, tail);
      assert tail[0] == sep && tail[1..] == Join(parts[1..], sep);
      assert SplitAll(tail, sep) == [[]] + parts[1..];
      assert parts[0] + [] == parts[0];
      assert parts == [parts[0]] + parts[1..];
    }
  }
}

=== FILE: signer.dfy ===
/** The signing half of `Base.request`: the parameters sorted by the text of
    their keys, and the string fed to the digest. */
module Signer {
  import opened RubyString
  import opened RubyHash

  /** The comparison `a[0].to_s <=> b[0].to_s` that orders the parameters. */
  predicate KeyLessEq(x: Pair, y: Pair) {
    LessEq(x.0.ToS(), y.0.ToS())
  }

  /** Ascending by key text. */
  predicate Sorted(p: Params) {
    |p| <= 1 || (KeyLessEq(p[0], p[1]) && Sorted(p[1..]))
  }

  /** No two pairs share a key text. */
  predicate DistinctTexts(p: Params) {
    forall x, y | x in p && y in p && x.0.ToS() == y.0.ToS() :: x == y
  }

  /** `x` put into `s` before the first pair it does not follow; a sorted `s`
      stays sorted. */
  function Insert(x: Pair, s: Params): (r: Params)
    ensures Sorted(s) ==> Sorted(r)
    ensures |r| == |s| + 1
    ensures r[0] == x || (s != [] && r[0] == s[0])
  {
    if s == [] then [x]
    else if KeyLessEq(x, s[0]) then
      assert ([x] + s)[1..] == s;
      [x] + s
    else
      LessEqTotal(x.0.ToS(), s[0].0.ToS());
      var t := Insert(x, s[1..]);
      assert ([s[0]] + t)[1..] == t;
      [s[0]] + t
  }

  /** Insertion adds exactly `x` and keeps every other pair. */
  lemma {:induction false} InsertAdds(x: Pair, s: Params)
    ensures multiset(Insert(x, s)) == multiset(s) + multiset{x}
  {
    if s != [] && !KeyLessEq(x, s[0]) {
      InsertAdds(x, s[1..]);
      assert s == [s[0]] + s[1..];
    }
  }

  /** `parameters.sort { |a, b| a[0].to_s <=> b[0].to_s }`. Ruby's sort leaves
      the order of two pairs with the same key text open; this one keeps
      their input order. */
  function SortByKey(p: Params): (r: Params)
    ensures Sorted(r)
    ensures multiset(r) == multiset(p)
  {
    if p == [] then []
    else
      assert p == [p[0]] + p[1..];
      InsertAdds(p[0], SortByKey(p[1..]));
      Insert(p[0], SortByKey(p[1..]))
  }

  /** The first pair of a sorted list comes no later than any of its pairs. */
  lemma {:induction false} SortedHeadLeast(a: Params, y: Pair)
    requires Sorted(a) && y in a
    ensures KeyLessEq(a[0], y)
  {
    if y != a[0] {
      assert y in a[1..];
      SortedHeadLeast(a[1..], y);
      LessEqTransitive(a[0].0.ToS(), a[1].0.ToS(), y.0.ToS());
    } else {
      LessEqTotal(y.0.ToS(), y.0.ToS());
    }
  }

  /** Two sorted lists of the same pairs with distinct key texts start alike. */
  lemma SortedSameHead(a: Params, b: Params)
    requires a != [] && Sorted(a) && Sorted(b) && multiset(a) == multiset(b) && DistinctTexts(a)
    ensures b != [] && a[0] == b[0]
  {
    assert a[0] in multiset(b);
    assert b[0] in multiset(a);
    SortedHeadLeast(b, a[0]);
    SortedHeadLeast(a, b[0]);
    LessEqAntisymmetric(a[0].0.ToS(), b[0].0.ToS());
  }

  lemma TailMultiset(a: Params)
    requires a != []
    ensures multiset(a[1..]) == multiset(a) - multiset{a[0]}
  {
    assert a == [a[0]] + a[1..];
  }

  /** With distinct key texts there is only one sorted order. */
  lemma {:induction false} SortedUnique(a: Params, b: Params)
    requires Sorted(a) && Sorted(b) && multiset(a) == multiset(b) && DistinctTexts(a)
    ensures a == b
  {
    if a == [] {
      assert |b| == |multiset(b)| == 0;
    } else {
      SortedSameHead(a, b);
      TailMultiset(a);
      TailMultiset(b);
      assert DistinctTexts(a[1..]) by {
        assert forall x | x in a[1..] :: x in a;
      }
      SortedUnique(a[1..], b[1..]);
      assert a == [a[0]] + a[1..] && b == [b[0]] + b[1..];
    }
  }

  /** Sorting does not see the order the hash hands its pairs over in. */
  lemma SortOrderFree(p: Params, q: Params)
    requires multiset(p) == multiset(q) && DistinctTexts(p)
    ensures SortByKey(p) == SortByKey(q)
  {
    var a, b := SortByKey(p), SortByKey(q);
    assert forall x :: x in a <==> x in p by {
      forall x ensures x in a <==> x in p {
        assert x in a <==> x in multiset(a);
      }
    }
    SortedUnique(a, b);
  }

  /** One pair as `Array#join('')` writes it: key text, then value text. */
  function Entry(x: Pair): Bytes {
    x.0.ToS() + x.1.ToS()
  }

  /** The entry of every pair, in order. */
  function Entries(p: Params): (r: seq<Bytes>)
    ensures |r| == |p|
  {
    if p == [] then [] else [Entry(p[0])] + Entries(p[1..])
  }

  /** `params.join('')`: the entries back to back, no separators. */
  function Joined(p: Params): Bytes {
    Concat(Entries(p))
  }

  /** The digest's input: the sorted entries, then the secret. */
  function SignatureInput(sorted: Params, secret: Bytes): Bytes {
    Joined(sorted) + secret
  }

  /** The signature input does not depend on the order of the parameters. */
  lemma SignatureInputOrderFree(p: Params, q: Params, secret: Bytes)
    requires multiset(p) == multiset(q) && DistinctTexts(p)
    ensures SignatureInput(SortByKey(p), secret) == SignatureInput(SortByKey(q), secret)
  {
    SortOrderFree(p, q);
  }

  lemma {:induction false} EntriesAppend(a: Params, b: Params)
    ensures Entries(a + b) == Entries(a) + Entries(b)
  {
    if a == [] {
      assert a + b == b;
    } else {
      assert (a + b)[0] == a[0] && (a + b)[1..] == a[1..] + b;
      EntriesAppend(a[1..], b);
    }
  }

  /** `join('')` of two lists of pairs is the two joins back to back. */
  lemma JoinedAppend(a: Params, b: Params)
    ensures Joined(a + b) == Joined(a) + Joined(b)
  {
    EntriesAppend(a, b);
    ConcatAppend(Entries(a), Entries(b));
  }

  lemma JoinedAt(p: Params, i: nat)
    requires i < |p|
    ensures Joined(p) == Joined(p[..i]) + Entry(p[i]) + Joined(p[i + 1..])
  {
    var x := p[i];
    assert p == p[..i] + ([x] + p[i + 1..]);
    JoinedAppend(p[..i], [x] + p[i + 1..]);
    JoinedAppend([x], p[i + 1..]);
    assert Entries([x]) == [Entry(x)];
    assert Concat([Entry(x)]) == Entry(x) + Concat([]);
  }

  /** Two texts that differ only in one entry's value differ. */
  lemma MiddleDiffers(pre: Bytes, k: Bytes, x: Bytes, y: Bytes, post: Bytes, secret: Bytes)
    requires x != y
    ensures pre + (k + x) + post + secret != pre + (k + y) + post + secret
  {
    var s, t := pre + (k + x) + post + secret, pre + (k + y) + post + secret;
    if |x| == |y| {
      var m :| 0 <= m < |x| && x[m] != y[m];
      assert s[|pre| + |k| + m] == x[m];
      assert t[|pre| + |k| + m] == y[m];
    } else {
      assert |s| != |t|;
    }
  }

  /** Changing the value text of one pair, and nothing else, changes the
      signature input. */
  lemma SignatureInputSeparates(a: Params, b: Params, i: nat, secret: Bytes)
    requires |a| == |b| && i < |a|
    requires forall j | 0 <= j < |a| && j != i :: a[j] == b[j]
    requires a[i].0 == b[i].0 && a[i].1.ToS() != b[i].1.ToS()
    ensures SignatureInput(a, secret) != SignatureInput(b, secret)
  {
    assert a[..i] == b[..i];
    assert a[i + 1..] == b[i + 1..];
    JoinedAt(a, i);
    JoinedAt(b, i);
    MiddleDiffers(Joined(a[..i]), a[i].0.ToS(), a[i].1.ToS(), b[i].1.ToS(), Joined(a[i + 1..]), secret);
  }

  /** Insertion compares key texts only: inserting two pairs with the same key
      puts them in the same place of the same list. */
  lemma {:induction false} InsertTwin(x: Pair, y: Pair, s: Params) returns (m: nat)
    requires x.0 == y.0
    ensures OneApart(Insert(x, s), Insert(y, s), m)
    ensures Insert(x, s)[m] == x && Insert(y, s)[m] == y
    decreases |s|
  {
    if s == [] || KeyLessEq(x, s[0]) {
      m := 0;
    } else {
      var m0 := InsertTwin(x, y, s[1..]);
      m := m0 + 1;
    }
  }

  /** Inserting one pair into two lists one value apart keeps them one value
      apart; the differing pair moves at most one place back. */
  lemma {:induction false} InsertApart(x: Pair, s: Params, t: Params, m: nat) returns (m': nat)
    requires OneApart(s, t, m)
    ensures OneApart(Insert(x, s), Insert(x, t), m')
    ensures Insert(x, s)[m'] == s[m] && Insert(x, t)[m'] == t[m]
    decreases m
  {
    if KeyLessEq(x, s[0]) {
      InsertApartFront(x, s, t, m);
      m' := m + 1;
    } else if m == 0 {
      InsertApartHead(x, s, t);
      m' := 0;
    } else {
      ApartTail(s, t, m);
      var m0 := InsertApart(x, s[1..], t[1..], m - 1);
      InsertApartBehind(x, s, t, m, m0);
      m' := m0 + 1;
    }
  }

  /** `x` goes in front of both lists. */
  lemma InsertApartFront(x: Pair, s: Params, t: Params, m: nat)
    requires OneApart(s, t, m) && KeyLessEq(x, s[0])
    ensures OneApart(Insert(x, s), Insert(x, t), m + 1)
    ensures Insert(x, s)[m + 1] == s[m] && Insert(x, t)[m + 1] == t[m]
  {
    assert s[0].0 == t[0].0;
    assert Insert(x, s) == [x] + s && Insert(x, t) == [x] + t;
    ApartCons(x, s, t, m);
  }

  /** `x` goes behind the differing first pair, into the same rest. */
  lemma InsertApartHead(x: Pair, s: Params, t: Params)
    requires OneApart(s, t, 0) && !KeyLessEq(x, s[0])
    ensures OneApart(Insert(x, s), Insert(x, t), 0)
    ensures Insert(x, s)[0] == s[0] && Insert(x, t)[0] == t[0]
  {
    assert s[1..] == t[1..];
    var u := Insert(x, s[1..]);
    assert Insert(x, s) == [s[0]] + u && Insert(x, t) == [t[0]] + u;
    ApartHead(s[0], t[0], u);
  }

  /** `x` goes behind a common first pair, into two rests one value apart. */
  lemma InsertApartBehind(x: Pair, s: Params, t: Params, m: nat, m0: nat)
    requires OneApart(s, t, m) && 0 < m && !KeyLessEq(x, s[0])
    requires OneApart(Insert(x, s[1..]), Insert(x, t[1..]), m0)
    requires Insert(x, s[1..])[m0] == s[m] && Insert(x, t[1..])[m0] == t[m]
    ensures OneApart(Insert(x, s), Insert(x, t), m0 + 1)
    ensures Insert(x, s)[m0 + 1] == s[m] && Insert(x, t)[m0 + 1] == t[m]
  {
    assert s[0] == t[0];
    assert Insert(x, s) == [s[0]] + Insert(x, s[1..]) && Insert(x, t) == [s[0]] + Insert(x, t[1..]);
    ApartCons(s[0], Insert(x, s[1..]), Insert(x, t[1..]), m0);
  }

  /** The sort looks at key texts only: two lists one value apart sort into
      two lists one value apart, the differing pair at the same place in both. */
  lemma {:induction false} SortApart(p: Params, q: Params, i: nat) returns (m: nat)
    requires OneApart(p, q, i)
    ensures OneApart(SortByKey(p), SortByKey(q), m)
    ensures SortByKey(p)[m] == p[i] && SortByKey(q)[m] == q[i]
    decreases i
  {
    if i == 0 {
      assert p[1..] == q[1..];
      m := InsertTwin(p[0], q[0], SortByKey(p[1..]));
    } else {
      assert p[0] == q[0];
      var m0 := SortApart(p[1..], q[1..], i - 1);
      m := InsertApart(p[0], SortByKey(p[1..]), SortByKey(q[1..]), m0);
    }
  }

  /** Changing the value text under one key, and nothing else, changes the
      signature input built from the sorted pairs, wherever the sort puts
      that key. */
  lemma SortedInputSeparates(p: Params, q: Params, i: nat, secret: Bytes)
    requires OneApart(p, q, i) && p[i].1.ToS() != q[i].1.ToS()
    ensures SignatureInput(SortByKey(p), secret) != SignatureInput(SortByKey(q), secret)
  {
    var m := SortApart(p, q, i);
    SignatureInputSeparates(SortByKey(p), SortByKey(q), m, secret);
  }
}

=== FILE: wrappers.dfy ===
/** Failure-carrying results, standing for the exceptions Ruby raises. */
module Wrappers {

  datatype Option<+T> = None | Some(value: T)

  datatype Result<+T, +E> = Success(value: T) | Failure(error: E)
}
